=== FILE: README.md ===
# prayog session engine in Dafny

A model of the core of prayog, an interactive PHP shell (a REPL). The shell
reads lines until they make up one complete unit of code, evaluates the unit
in a persistent variable scope, prints the result or the error, and loops
until end of input or an exit word.

The model is pure. A whole session is a function of five things: the
configuration, the environment (`HOME`, `USERPROFILE` and the temp
directory), the PHP version the banner names, the lines the user types,
and an execution engine. The end of
the line sequence stands for `readline` returning `false` (Ctrl+D). The
engine is a parameter standing for PHP's `eval`. It receives the wrapped
code and the variables in scope. It replies in one of three ways:
with a value, the captured output and the variables after the call; with
the class and message of what it threw; or with the news that the code
ended the script (`exit`, `die`, a fatal error), together with the output
still buffered. The session's result is the text written to standard
output.

One module per source class, plus helper modules (`Php`, `Values`,
`Maybe`):

- `Php` (`php.dfy`): the PHP built-ins and PCRE behaviour the engine
  relies on. These are `trim`, `rtrim`, `substr_count`,
  `str_pad(..., STR_PAD_LEFT)`, integer-to-string conversion and
  `var_export` of a string. They also include PCRE's `\s` and the ASCII
  case folding of the `/i` flag. Each is pinned down by a contract or
  lemma. `trim`, `rtrim` and the `\s` runs state what they keep and what
  they drop. The case folding states which characters change. `;\s*$`
  has an if-and-only-if characterization. Integer text is canonical and
  reads back. `var_export` comes with a strict reader that accepts only
  escaped quotes and spliced NUL bytes, and reads the literal back.
- `Values` (`values.dfy`): PHP values. Arrays are ordered key/value
  entries. Objects carry a handle, so that `!==` is identity.
- `Configuration` (`config.dfy`): `Config` and the history-file path.
- `ReadlineInput` (`readline_input.dfy`): the statement accumulator, its
  completeness test and its prompt.
- `Evaluator` (`evaluator.dfy`): the classifier, the wrapper, `evaluate`
  and the variable store.
- `Formatter` (`formatter.dfy`): value formatting and the array preview.
- `Repl` (`repl.dfy`): the loop, the welcome text, error lines and the
  goodbye.

Five behaviours of the code are easy to miss, and the model keeps them:

- At end of input, the code never evaluates content still pending in the
  buffer. It says goodbye (`Repl.PendingLinesAreDroppedAtEnd`).
- On a failed evaluation, the code does not reset the buffer. No reset is
  needed, because the buffer is already empty whenever a unit is yielded.
- The method's own locals leak into the store. `$code` and `$wrappedCode`
  shadow stored variables of those names (`Evaluator.StoredCodeIsShadowed`).
  After a completed call, `$result` and `$output` overwrite them
  (`Evaluator.StoredResultAndOutputAreOverwritten`).
- `exit;` typed with its semicolon is not an exit word. It reaches
  `eval` as `return exit;` (`Repl.ExitStatementReachesEngine`), and code
  that ends the script ends the session without the goodbye
  (`Repl.ScriptEndSkipsGoodbye`).
- The code's keyword test in `isCompleteStatement` cannot change its
  answer, because every branch after the balance check returns true. The
  model therefore states completeness as "non-blank and balanced"
  (`ReadlineInput.CompleteIffBalanced`).

## Model

| member | source | states |
|---|---|---|
| Php.RTrimSpec | src/Input/ReadlineInput.php:40 | the result is a prefix of the input, does not end in a trim character, and everything dropped is trim characters |
| Php.LTrimSpec | src/Evaluator.php:22 | the result is a suffix of the input, does not start with a trim character, and everything dropped is trim characters |
| Php.TrimEmptyIffBlank | src/Evaluator.php:22-26 | `trim` gives `''` exactly when every character is a trim character |
| Php.CountRTrim | src/Input/ReadlineInput.php:93-101 | `rtrim` does not change how often a delimiter occurs |
| Php.CountLTrim | src/Input/ReadlineInput.php:93-101 | `ltrim` does not change how often a delimiter occurs |
| Php.CountTrim | src/Input/ReadlineInput.php:93-101 | trimming does not change how often a delimiter occurs |
| Php.CountAppend | src/Input/ReadlineInput.php:99-101 | `substr_count` of a concatenation is the sum of the two counts |
| Php.RTrimCharDropsRun | src/Evaluator.php:100 | `rtrim($code, ';')` is a prefix, does not end in `;`, and drops only `;` |
| Php.LStripPcreSpec | src/Evaluator.php:93 | `^\s*` consumes a run of `\s` characters: the rest is a suffix that does not start with one |
| Php.RStripPcreSpec | src/Evaluator.php:98 | `\s*$` consumes a run of `\s` characters: the rest is a prefix that does not end in one |
| Php.EndsWithSemicolonIff | src/Evaluator.php:98 | `/;\s*$/` matches exactly when some `;` is followed by nothing but `\s` characters |
| Php.LowerChar | src/Evaluator.php:93 | under the ASCII case folding of the `/i` flag, a character changes exactly when it is `A` to `Z`, which moves to its small letter; no capital results |
| Php.LowerSpec | src/Evaluator.php:128 | the `/i` case folding keeps the length, changes exactly the capitals, and is idempotent |
| Php.PadLeft | src/Input/ReadlineInput.php:25 | `str_pad` to the left reaches the target width, ends with the original, and fills with spaces only |
| Php.IntToString | src/Output/Formatter.php:43 | the decimal text of an integer is an optional minus sign, present exactly for negatives, then digits with no leading zero; zero is `0` |
| Php.IntRoundTrip | src/Output/Formatter.php:43 | the decimal text of any integer reads back as that integer |
| Php.VarExport | src/Output/Formatter.php:53 | `var_export` of a string is single-quoted and no shorter than the string plus its quotes; what lies between the quotes is pinned by the strict reader in `Php.VarExportRoundTrip` |
| Php.VarExportRoundTrip | src/Output/Formatter.php:53 | the strict reader accepts the `var_export` literal and gives back the string. The reader takes a quote only as `\'` and a NUL byte only as `' . "\0" . '`, so the literal escapes every quote and splices every NUL |
| Php.VarExportHasNoRawNul | src/Output/Formatter.php:53 | no NUL byte appears raw in a `var_export` literal |
| Php.UnexportIsStrict | src/Output/Formatter.php:53 | the reader refuses `'it's'` and a literal with a raw NUL, and reads `'it\'s'` as `it's` |
| Configuration.DefaultConfig | src/Config.php:12-17 | the defaults: prompt `prayog> `, no history file, colour on, no welcome message |
| Configuration.DefaultHistoryFile | src/Config.php:24-29 | the path ends in `/.prayog_history`; its directory is the first truthy of HOME and USERPROFILE, else the temp dir |
| Configuration.HistoryFile | src/Config.php:19-22 | an explicit history file is used verbatim; otherwise the default path |
| ReadlineInput.NewInput | src/Input/ReadlineInput.php:12-21 | a new reader has an empty buffer and is at line 1 |
| ReadlineInput.CompleteIffBalanced | src/Input/ReadlineInput.php:91-123 | a buffer is complete exactly when it is not blank and braces, brackets and parentheses each balance |
| ReadlineInput.SurplusAppend | src/Input/ReadlineInput.php:99-101 | the open-minus-close counter of a concatenation is the sum of the parts' counters |
| ReadlineInput.SurplusBlocksCompletion | src/Input/ReadlineInput.php:99-106 | an unbalanced buffer stays incomplete whatever is appended without that delimiter kind |
| ReadlineInput.Contribution | src/Input/ReadlineInput.php:40-51 | a continuation line adds its right-trimmed text without the backslash; any other line adds itself and a newline |
| ReadlineInput.Feed | src/Input/ReadlineInput.php:40-61 | one line yields a unit exactly when it is not a continuation and the buffer with its contribution is complete; the unit is that buffer, the buffer clears and the line number advances; otherwise the buffer grows by the contribution on the same line number |
| ReadlineInput.Read | src/Input/ReadlineInput.php:23-62 | a yielded unit consumes at least one line, clears the buffer and advances the line number; end of input consumes every line and leaves the line number alone |
| ReadlineInput.ReadLeavesSuffix | src/Input/ReadlineInput.php:23-62 | the lines `read` leaves unread are the tail of its input |
| ReadlineInput.ReadYieldsAtFirstCompletion | src/Input/ReadlineInput.php:23-62 | the unit read is the accumulation of exactly the shortest run of lines that completes the buffer; at end of input no prefix completed and the buffer holds all the lines |
| ReadlineInput.ContinuationPrompt | src/Input/ReadlineInput.php:25 | the continuation prompt is `*> ` right-aligned to the main prompt's width |
| ReadlineInput.Prompt | src/Input/ReadlineInput.php:26-28 | the prompt is `[n] ` and then the main prompt on an empty buffer, else the continuation prompt |
| ReadlineInput.Reset | src/Input/ReadlineInput.php:69-72 | after `reset` nothing is pending; the prompt and line number are kept |
| ReadlineInput.PendingAfterEndOfInput | src/Input/ReadlineInput.php:74-82 | at end of input, the pending buffer is the accumulation of all the lines, and it is pending exactly when that is not empty |
| ReadlineInput.PendingKeepsSurplus | src/Input/ReadlineInput.php:45-51 | lines without a delimiter kind do not change the buffer's counter for it |
| ReadlineInput.UnbalancedReadWaits | src/Input/ReadlineInput.php:53-61 | with an unclosed delimiter and no further delimiter of that kind in the input, `read` never yields |
| Evaluator.OpensWithAnyIffSome | src/Evaluator.php:128 | the keyword alternation matches exactly when one of its words opens the code |
| Evaluator.IsExpressionIffNoKeyword | src/Evaluator.php:123-129 | `isExpression` is false exactly when one of the 21 statement keywords opens the trimmed code as a whole word, ignoring case |
| Evaluator.WrapCodeShape | src/Evaluator.php:90-114 | the wrapped code is the code itself or starts with `return ` and ends with `;`; code opening with `return` is kept |
| Evaluator.WrapCodeWithSemicolon | src/Evaluator.php:97-106 | code ending in `;` becomes `return <code without trailing ;>;` exactly when that is an expression, and is otherwise kept |
| Evaluator.WrapCodeWithoutSemicolon | src/Evaluator.php:108-113 | other code becomes `return <code>;` exactly when it is an expression, and is otherwise kept |
| Evaluator.WrapCodeIdempotent | src/Evaluator.php:90-114 | wrapped code is never wrapped again |
| Evaluator.ExitIsAnExpression | src/Evaluator.php:123-128 | `exit` passes the expression test, because no statement keyword opens it |
| Evaluator.ExitStatementWraps | src/Evaluator.php:29-34 | `exit;` is not an exit word and is wrapped into `return exit;` |
| Evaluator.UpdateVariablesSpec | src/Evaluator.php:131-157 | the store gains the admitted new names with their values; a tracked name takes the value after the call when that is set (or the name is new), else keeps its value |
| Evaluator.TrackedNamesFollowLatestValue | src/Evaluator.php:151-156 | when every tracked name was in scope, none is dropped and each takes its latest non-null value |
| Evaluator.ReconcileUnchangedScope | src/Evaluator.php:131-157 | reconciling an unchanged scope leaves the store as it was |
| Evaluator.SetVariable | src/Evaluator.php:75-78 | one name is set or overridden and the others are kept |
| Evaluator.SetVariables | src/Evaluator.php:80-83 | the given names take the given values and the others are kept |
| Evaluator.SetVariableIsMergeOfOne | src/Evaluator.php:75-83 | setting one name equals merging a one-entry map |
| Evaluator.ShownOutput | src/Evaluator.php:49-57 | captured output is echoed verbatim, with exactly one newline added when it does not end in one; nothing is echoed for no output |
| Evaluator.Scope | src/Evaluator.php:37-41 | the scope holds the stored variables, except that the locals `$code` and `$wrappedCode` win |
| Evaluator.DefinedAfter | src/Evaluator.php:46-47 | after the call, `$result` holds what `eval` returned and `$output` the captured text, over whatever the code left in those names; every other variable is as the engine left it |
| Evaluator.Evaluate | src/Evaluator.php:20-73 | blank code returns null and exit words return the exit signal, both with nothing shown and the store unchanged; any other code is wrapped, run in the scope and settled |
| Evaluator.Settle | src/Evaluator.php:44-68 | a throw becomes a failure with nothing shown and the store kept; a completion returns the value, echoes the output and reconciles the store with the variables defined after the call, `$result` and `$output` included; a script end shows the buffered output |
| Evaluator.PreDispatchIgnoresEngine | src/Evaluator.php:22-31 | blank code and exit words never reach the engine |
| Evaluator.StoredCodeIsShadowed | src/Evaluator.php:38-41 | a stored variable named `code` is replaced by the text of the unit, even when the code touches nothing |
| Evaluator.StoredResultAndOutputAreOverwritten | src/Evaluator.php:46-47 | after a completed call a stored `output` holds the captured text, a stored `result` the returned value unless that is `null`; neither name is added when not stored |
| Evaluator.InertKeepsOtherVariables | src/Evaluator.php:38-66 | code that touches nothing and prints nothing keeps every stored variable except `code`, `wrappedCode` and `output`; a stored `output` becomes `''` |
| Formatter.ValuePreview | src/Output/Formatter.php:106-118 | at depth 0 an element is `...`. Otherwise a long string is cut to 20 characters and `...`, a short string is its quoted `var_export` literal, an integer is its canonical decimal text, `true` is `1` and `false` and `null` are empty, an object shows its class, and an array is bracketed |
| Formatter.ArrayPreview | src/Output/Formatter.php:83-104 | an array preview is bracketed |
| Formatter.PreviewItems | src/Output/Formatter.php:89-101 | the preview has one item per entry up to the limit, and one more, `...`, exactly when entries remain |
| Formatter.ItemAt | src/Output/Formatter.php:91-100 | the i-th item below the limit is the item of the i-th entry: its key, ` => `, and its value previewed one level deeper |
| Formatter.KeyTextSpec | src/Output/Formatter.php:97 | a string key shows as its quoted `var_export` literal and an integer key as its bare decimal text, so they never start alike |
| Formatter.Elide | src/Output/Formatter.php:89-101 | the first `maxItems` items are kept in order and one `...` follows exactly when items remain |
| Formatter.DepthOneElidesValues | src/Output/Formatter.php:98-110 | at depth 1 every item of a preview ends in `...` |
| Formatter.TopLevelPreview | src/Output/Formatter.php:58-65 | a non-empty array shows `array(N) ` and a bracketed preview of its first three entries, with a fourth item `...` when there are more |
| Formatter.NestedArrayItem | src/Output/Formatter.php:98-113 | a non-empty nested array shows as its key, ` => ` and its bracketed preview at depth 1 with at most two items |
| Formatter.Plain | src/Output/Formatter.php:16-81 | `null`, `true`/`false`, an integer as its canonical decimal text, a string as its quoted `var_export` literal, `array(N) [...]`, `object(Class)` and `resource(type)` |
| Formatter.Format | src/Output/Formatter.php:16-81 | with colour, the text starts with the type's escape and ends with the reset; without colour, it is the plain text |
| Formatter.ColorWrapsPlainText | src/Output/Formatter.php:16-81 | colour only wraps: the coloured text is the type's escape, the plain text and the reset |
| Formatter.StringTextReadsBack | src/Output/Formatter.php:51-54 | a string's text, and its preview when at most 20 characters, unquote back to the string, NUL bytes included |
| Formatter.IntTextReadsBack | src/Output/Formatter.php:43 | an integer's text and its preview parse back to the integer |
| Formatter.EmptyStringIsQuoted | src/Output/Formatter.php:53 | the empty string prints as `''`, both at top level and in a preview, never as `null`'s text |
| Repl.Welcome | src/Repl.php:88-100 | a configured welcome message on its own line, else the banner, the PHP version line and the quit hint |
| Repl.ErrorLine | src/Repl.php:102-107 | `Error (kind): message` and a newline, in red when colouring |
| Repl.ColoredErrorLine | src/Repl.php:104-106 | the red line is the plain line between the escape and the reset |
| Repl.NewSession | src/Repl.php:21-30 | a new session reads with the configured prompt from line 1 with nothing pending; the history file is the configured one, else the default path ending in `/.prayog_history`; no variable is stored |
| Repl.ResultText | src/Repl.php:59-62 | `null` prints nothing; any other value prints its formatted text and a newline |
| Repl.Cycle | src/Repl.php:39-69 | a turn that continues consumes input, keeps the configuration and leaves nothing pending. A turn that stops ends with the goodbye. A turn halts only when the unit it read reached the engine and the engine ended the script, and its text is then exactly the buffered output. End of input on an empty buffer is a bare goodbye |
| Repl.Loop | src/Repl.php:39-69 | the transcript ends with the goodbye unless some turn of this very session evaluated code that ended the script |
| Repl.Start | src/Repl.php:35-70 | the transcript is the welcome text, then the loop; it ends with the goodbye unless some turn of this session evaluated code that ended the script |
| Repl.NeverExitsNeverHalts | src/Repl.php:39-69 | an engine that never ends the script never halts a session, so such a session always reaches its goodbye or its end of input |
| Repl.EndOfInputSaysGoodbye | src/Repl.php:41-48 | Ctrl+D at once prints the welcome and the goodbye, whatever the engine |
| Repl.PendingLinesAreDroppedAtEnd | src/Repl.php:43-48 | at end of input the session ends with the goodbye alone; pending lines are never evaluated |
| Repl.ExitWordStops | src/Repl.php:50-57 | a unit that trims to `exit`, `exit()`, `quit` or `quit()` ends the session with the goodbye alone |
| Repl.FailureKeepsStore | src/Repl.php:63-68 | a throw prints one error line and keeps the store; a `ParseError` is shown as `Parse error` |
| Repl.CompletionPrintsValue | src/Repl.php:50-62 | a completed unit prints its output, then the formatted value unless it is `null`, and the store takes in the changes, the method's `$result` and `$output` included |
| Repl.ScriptEndSkipsGoodbye | src/Evaluator.php:46 | a unit whose code ends the script makes the rest of the transcript exactly the output PHP flushes at shutdown, with no goodbye |
| Repl.ExitStatementReachesEngine | src/Evaluator.php:29-46 | a unit that trims to `exit;` is evaluated by the engine as `return exit;` |

## Left out

- Readline itself: the line editor, `readline_add_history`, and loading and
  saving the history file. The lines are a parameter; the history path is
  computed and kept in the session but never written.
- `eval`, output buffering and `flush`: the engine is a parameter, and its
  captured output is part of its reply.
- `getenv`, `sys_get_temp_dir` and `PHP_VERSION` are parameters.
- `PHP_EOL` is `"\n"`, as on Unix.
- Float formatting: a float carries its PHP string form as text. NaN and
  `-0.0` identity under `!==` are not modelled.
- `extract` skipping names that are not valid identifiers is not modelled.
- `array_merge` renumbering integer keys is not modelled, because the store
  has string keys only.
- Insertion order of the store is not modelled: the store is a map.
- `getVariables` has no separate member, because the store is the value
  itself.
- `Repl.setVariable` and `Repl.setVariables` only delegate; they are
  covered by `Evaluator.SetVariable` and `Evaluator.SetVariables`.
- Prompts are not part of the transcript, because readline writes them to
  the terminal. `ReadlineInput.Prompt` states them instead.
- Evaluator.Settle: the local `$varsBefore` is not modelled. The code
  cannot see or rebind it, and a stored variable of that name is not
  replaced by the snapshot array. The model reconciles against the scope
  the engine was given, which is what `$varsBefore` holds when the code
  leaves it alone. Turning that scope into a PHP array would need the
  store's insertion order, and the store is a map.
- Evaluator.InertKeepsOtherVariables: inherits the gap above, so it does
  not exclude a stored `varsBefore`.
- Repl.FailureKeepsStore: the evaluated code runs inside the method with
  `$this` bound, so it could write the store directly before throwing.
  The engine cannot reach the store except through the variables it is
  given, so this is not modelled.
- Evaluator.Settle: shutdown functions and destructors that run when the
  script ends are not modelled. The output at a script end is the
  buffered text alone.
- The engine is stateless: its reply depends only on the code and the
  variables in scope. PHP keeps functions, classes, constants and static
  variables declared by earlier turns, and `rand()` and `time()` differ
  between calls. So a session that declares `class C {}` twice, or calls
  `define('A', 1)` twice, is not represented: the model gives both turns
  the same reply.
- Characters stand for bytes. `substr` and `strlen` count characters, and
  the `/i` flag folds ASCII letters only.
- Repl.Cycle: only an object whose class is exactly `Prayog\ExitSignal`
  stops the loop. Subclasses, which `instanceof` would also accept, are not
  modelled.
- Repl.FailureKeepsStore: a subclass of `ParseError` is shown by its own
  class name, not as `Parse error`.
- Formatter.ArrayPreview: the contract states only the bracketing. The
  items are stated by `Formatter.PreviewItems` and `Formatter.ItemAt`.
- Formatter.ValuePreview: for a float or a resource, the contract does not
  state the cast text.
- Closed resources and references are not modelled.

=== FILE: config.dfy ===
/** The REPL's configuration record and its history-file rule. */
module Configuration {
  import opened Maybe
  import opened Php

  datatype Config = Config(
    prompt: string,
    historyFile: Option<string>,
    colorOutput: bool,
    welcomeMessage: Option<string>)

  /** What the environment lookups report; `None` is `getenv` returning `false`. */
  datatype Env = Env(home: Option<string>, userProfile: Option<string>, tempDir: string)

  const HistoryName: string := "/.prayog_history"

  /** The constructor's defaults. */
  function DefaultConfig(): (c: Config)
    ensures c.prompt == "prayog> " && |c.prompt| == 8
    ensures c.historyFile.None? && c.welcomeMessage.None?
    ensures c.colorOutput
  {
    Config("prayog> ", None, true, None)
  }

  /** PHP truthiness of `getenv`'s result: `false`, `""` and `"0"` are falsy. */
  predicate Truthy(v: Option<string>) {
    v.Some? && v.value != "" && v.value != "0"
  }

  /** `getDefaultHistoryFile`: the first truthy of HOME and USERPROFILE, else the temp dir. */
  function DefaultHistoryFile(env: Env): (r: string)
    ensures EndsWith(r, HistoryName)
    ensures var dir := r[..|r| - |HistoryName|];
      if Truthy(env.home) then dir == env.home.value
      else if Truthy(env.userProfile) then dir == env.userProfile.value
      else dir == env.tempDir
  {
    var home := if Truthy(env.home) then env.home.value
                else if Truthy(env.userProfile) then env.userProfile.value
                else "";
    if home != "" then home + HistoryName else env.tempDir + HistoryName
  }

  /** `getHistoryFile`: an explicit history file wins, verbatim. */
  function HistoryFile(c: Config, env: Env): (r: string)
    ensures c.historyFile.Some? ==> r == c.historyFile.value
    ensures c.historyFile.None? ==> r == DefaultHistoryFile(env) && EndsWith(r, HistoryName)
  {
    match c.historyFile
    case Some(path) => path
    case None => DefaultHistoryFile(env)
  }
}

=== FILE: evaluator.dfy ===
/**
 * `Evaluator`: the expression/statement classifier and wrapper, the
 * persistent variable store with its reconciliation rule, and `evaluate`
 * around an execution engine that is given as an oracle.
 */
module Evaluator {
  import opened Php
  import opened Values

  // ---------------------------------------------------------------------
  // Classifier and wrapper

  /** The words that make a unit a statement rather than an expression. */
  const StatementKeywords: seq<string> := [
    "if", "else", "elseif", "for", "foreach", "while", "do", "switch",
    "function", "class", "interface", "trait", "namespace", "use", "declare",
    "return", "echo", "print", "unset", "isset", "empty"]

  /** `preg_match('/^\s*word\b/i', $code)` for a lower-case word. */
  predicate StartsWithWord(code: string, word: string) {
    var t := LStripPcre(code);
    && |word| <= |t|
    && Lower(t[..|word|]) == word
    && (|t| == |word| || !IsWordChar(t[|word|]))
  }

  /** Some word of `words` opens `code`. */
  predicate OpensWithAny(code: string, words: seq<string>) {
    |words| > 0 && (StartsWithWord(code, words[0]) || OpensWithAny(code, words[1..]))
  }

  lemma {:induction false} OpensWithAnyIffSome(code: string, words: seq<string>)
    ensures OpensWithAny(code, words) <==> exists i :: 0 <= i < |words| && StartsWithWord(code, words[i])
  {
    if |words| > 0 {
      OpensWithAnyIffSome(code, words[1..]);
      if StartsWithWord(code, words[0]) {
        assert StartsWithWord(code, words[0]);
      } else if OpensWithAny(code, words[1..]) {
        var i :| 0 <= i < |words[1..]| && StartsWithWord(code, words[1..][i]);
        assert StartsWithWord(code, words[i + 1]);
      }
    }
  }

  /** `isExpression`: the trimmed code does not open with a statement keyword. */
  predicate IsExpression(code: string) {
    !OpensWithAny(Trim(code), StatementKeywords)
  }

  /** `isExpression` is false exactly when one of the keywords opens the trimmed code. */
  lemma IsExpressionIffNoKeyword(code: string)
    ensures !IsExpression(code) <==>
      exists i :: 0 <= i < |StatementKeywords| && StartsWithWord(Trim(code), StatementKeywords[i])
  {
    OpensWithAnyIffSome(Trim(code), StatementKeywords);
  }

  /** Anything that starts with `return ` opens with the word `return`. */
  lemma ReturnOpensWithReturn(x: string)
    ensures StartsWithWord("return " + x, "return")
  {
    var t := "return " + x;
    assert LStripPcre(t) == t;
    assert Lower(t[..6]) == "return";
  }

  /**
   * `wrapCode`: code that already opens with `return` is left alone; code
   * ending in `;` is wrapped, with all its trailing `;` dropped, when what
   * remains is an expression; other code is wrapped when it is an
   * expression. Wrapping asks the engine for the expression's value.
   */
  function WrapCode(code: string): string {
    if StartsWithWord(code, "return") then
      code
    else if EndsWithSemicolon(code) then
      var stripped := RTrimChar(code, ';');
      if IsExpression(stripped) then "return " + stripped + ";" else code
    else if IsExpression(code) then
      "return " + code + ";"
    else
      code
  }

  /**
   * What `wrapCode` does to code ending in `;` that does not open with
   * `return`: it is wrapped exactly when it is an expression without its
   * trailing `;`, and then it becomes `return <that expression>;`.
   */
  lemma WrapCodeWithSemicolon(code: string)
    requires !StartsWithWord(code, "return") && EndsWithSemicolon(code)
    ensures var r := WrapCode(code);
      var stripped := RTrimChar(code, ';');
      && (r != code <==> IsExpression(stripped))
      && (r != code ==> r == "return " + stripped + ";")
  {
    var stripped := RTrimChar(code, ';');
    if IsExpression(stripped) {
      var r := "return " + stripped + ";";
      assert WrapCode(code) == r;
      assert r == "return " + (stripped + ";");
      ReturnOpensWithReturn(stripped + ";");
    }
  }

  /**
   * What `wrapCode` does to other code that does not open with `return`:
   * it is wrapped exactly when it is an expression, as `return <code>;`.
   */
  lemma WrapCodeWithoutSemicolon(code: string)
    requires !StartsWithWord(code, "return") && !EndsWithSemicolon(code)
    ensures var r := WrapCode(code);
      && (r != code <==> IsExpression(code))
      && (r != code ==> r == "return " + code + ";")
  {
    if IsExpression(code) {
      var r := "return " + code + ";";
      assert WrapCode(code) == r;
      assert r == "return " + (code + ";");
      ReturnOpensWithReturn(code + ";");
    }
  }

  /** The result of `wrapCode` is the code itself, or a `return` statement ending in `;`; code opening with `return` is kept. */
  lemma WrapCodeShape(code: string)
    ensures var r := WrapCode(code);
      r == code || ("return " <= r && EndsWith(r, ";"))
    ensures StartsWithWord(code, "return") ==> WrapCode(code) == code
  {
  }

  /** Wrapping twice is wrapping once: wrapped code is never wrapped again. */
  lemma WrapCodeIdempotent(code: string)
    ensures WrapCode(WrapCode(code)) == WrapCode(code)
  {
    var r := WrapCode(code);
    WrapCodeShape(code);
    if r != code {
      ReturnOpensWithReturn(r[7..]);
      assert r == "return " + r[7..];
    }
  }

  /** The only word that opens `exit` as a whole word is `exit` itself. */
  lemma OnlyExitOpensExit(w: string)
    requires StartsWithWord("exit", w)
    ensures w == "exit"
  {
    var t := "exit";
    assert LStripPcre(t) == t;
    var p := t[..|w|];
    LowerSpec(p);
    assert Lower(p) == p;
    if |w| < |t| {
      assert IsWordChar(t[|w|]);
    }
  }

  /** No statement keyword opens `exit`: it is a whole word that is not one of them. */
  lemma ExitIsAnExpression()
    ensures IsExpression("exit")
  {
    var t := "exit";
    assert Trim(t) == t by {
      assert RTrim(t) == t && LTrim(t) == t;
    }
    forall i | 0 <= i < |StatementKeywords|
      ensures !StartsWithWord(t, StatementKeywords[i])
    {
      if StartsWithWord(t, StatementKeywords[i]) {
        OnlyExitOpensExit(StatementKeywords[i]);
      }
    }
    OpensWithAnyIffSome(t, StatementKeywords);
  }

  /**
   * `exit;` trims to itself, does not open with `return`, ends with `;`,
   * and is `exit` once its trailing `;` run is dropped.
   */
  lemma ExitStatementShape(c: string)
    requires c == "exit;"
    ensures Trim(c) == c && c !in ExitTokens
    ensures !StartsWithWord(c, "return") && EndsWithSemicolon(c)
    ensures RTrimChar(c, ';') == "exit"
  {
    assert Trim(c) == c by {
      assert RTrim(c) == c && LTrim(c) == c;
    }
    assert LStripPcre(c) == c;
    assert RStripPcre(c) == c;
    assert RTrimChar(c, ';') == "exit" by {
      assert c[..|c| - 1] == "exit";
      assert RTrimChar("exit", ';') == "exit";
    }
  }

  /** The text the wrapper builds for `exit`, kept apart so the literal is not unfolded inside a larger proof. */
  lemma ReturnExitText()
    ensures "return " + "exit" + ";" == "return exit;"
  {
  }

  /**
   * `exit;` with its semicolon trims to itself, is not one of the exit
   * words, and is wrapped into `return exit;`.
   */
  lemma ExitStatementWraps(c: string)
    requires c == "exit;"
    ensures Trim(c) == c && c !in ExitTokens
    ensures WrapCode(c) == "return exit;"
  {
    ExitStatementShape(c);
    ExitIsAnExpression();
    WrapCodeWithSemicolon(c);
    ReturnExitText();
  }

  // ---------------------------------------------------------------------
  // The variable store

  /** Names `updateVariables` never starts tracking. */
  const InternalNames: set<string> := {
    "GLOBALS", "_SERVER", "_GET", "_POST", "_FILES",
    "_COOKIE", "_SESSION", "_REQUEST", "_ENV",
    "varsBefore", "varsAfter", "wrappedCode", "result", "output"}

  /** A newly seen name is taken on unless internal, or underscored and not yet tracked. */
  predicate Admitted(name: string, store: Bindings) {
    name !in InternalNames && (!("_" <= name) || name in store)
  }

  /** The names a reconciliation adds: new since `before`, and admitted. */
  function NewNames(store: Bindings, before: Bindings, after: Bindings): set<string> {
    set n | n in after && n !in before && Admitted(n, store)
  }

  /**
   * `updateVariables`: first takes on the admitted names that appeared
   * during the call, then overwrites every tracked name whose value after
   * the call is set (`isset`: present and not null) and not identical.
   */
  function UpdateVariables(store: Bindings, before: Bindings, after: Bindings): Bindings {
    var added := map n | n in after && n !in before && Admitted(n, store) :: after[n];
    var tracked := store + added;
    map n | n in tracked :: if n in after && after[n] != Null && after[n] != tracked[n] then after[n] else tracked[n]
  }

  /**
   * The store after `updateVariables`: it gains the admitted new names,
   * each with its value after the call; a tracked name takes its value
   * after the call when that is set or the name is new, and otherwise
   * keeps its value.
   */
  lemma UpdateVariablesSpec(store: Bindings, before: Bindings, after: Bindings)
    ensures var r := UpdateVariables(store, before, after);
      && r.Keys == store.Keys + NewNames(store, before, after)
      && (forall n :: n in r && n !in store ==> r[n] == after[n])
      && (forall n :: n in store ==>
            r[n] == (if n in after && (after[n] != Null || n in NewNames(store, before, after)) then after[n] else store[n]))
  {
  }

  /**
   * When every tracked name was in scope for the call, a tracked name takes
   * its latest non-null value and is never dropped; nothing reverts.
   */
  lemma TrackedNamesFollowLatestValue(store: Bindings, before: Bindings, after: Bindings)
    requires store.Keys <= before.Keys
    ensures store.Keys <= UpdateVariables(store, before, after).Keys
    ensures forall n :: n in store ==>
      UpdateVariables(store, before, after)[n] == (if n in after && after[n] != Null then after[n] else store[n])
  {
    UpdateVariablesSpec(store, before, after);
  }

  /**
   * Reconciling a scope with itself changes nothing, provided the scope
   * agreed with the store on every tracked name it holds (or held null).
   */
  lemma ReconcileUnchangedScope(store: Bindings, scope: Bindings)
    requires forall n :: n in store && n in scope ==> scope[n] == store[n] || scope[n] == Null
    ensures UpdateVariables(store, scope, scope) == store
  {
    var r := UpdateVariables(store, scope, scope);
    UpdateVariablesSpec(store, scope, scope);
    assert NewNames(store, scope, scope) == {};
    assert r.Keys == store.Keys;
  }

  /** `setVariable`: sets or overrides one name. */
  function SetVariable(store: Bindings, name: string, value: Value): (r: Bindings)
    ensures r.Keys == store.Keys + {name}
    ensures r[name] == value
    ensures forall n :: n in store && n != name ==> r[n] == store[n]
  {
    store[name := value]
  }

  /** `setVariables`: `array_merge` with string keys, so the given values win. */
  function SetVariables(store: Bindings, vars: Bindings): (r: Bindings)
    ensures r.Keys == store.Keys + vars.Keys
    ensures forall n :: n in vars ==> r[n] == vars[n]
    ensures forall n :: n in store && n !in vars ==> r[n] == store[n]
  {
    store + vars
  }

  /** Setting one name is merging a one-entry map. */
  lemma SetVariableIsMergeOfOne(store: Bindings, name: string, value: Value)
    ensures SetVariables(store, map[name := value]) == SetVariable(store, name, value)
  {
  }

  // ---------------------------------------------------------------------
  // Evaluation

  /**
   * What the engine reports for one call: `eval`'s result with the output
   * captured and every variable defined once it returned; the class and
   * message of what it threw together with the output captured so far; or
   * that the code ended the script (`exit`, `die`, a fatal error), with the
   * output still buffered, which PHP flushes at shutdown.
   */
  datatype Reply =
    | Completed(value: Value, output: string, after: Bindings)
    | Raised(errorClass: string, message: string, partialOutput: string)
    | Exited(bufferedOutput: string)

  /** The execution engine: given the wrapped code and the scope, it replies. */
  type Engine = (string, Bindings) -> Reply

  /** An engine that always returns or throws: the code it runs never ends the script. */
  ghost predicate NeverExits(engine: Engine) {
    forall code, scope :: !engine(code, scope).Exited?
  }

  /**
   * What `evaluate` ends with: a value (`null` included), an `ExitSignal`,
   * the throwable it rethrew, or the end of the whole script.
   */
  datatype Outcome =
    | Returned(value: Value)
    | ExitSignal
    | Threw(errorClass: string, message: string)
    | ScriptEnded

  /** The outcome, the text written to standard output, and the store afterwards. */
  datatype Evaluation = Evaluation(outcome: Outcome, emitted: string, store: Bindings)

  const ExitTokens: set<string> := {"exit", "exit()", "quit", "quit()"}

  /** Captured output as echoed: verbatim, then one newline if it did not end in one. */
  function ShownOutput(output: string): (r: string)
    ensures output == "" ==> r == ""
    ensures output != "" ==> output <= r && EndsWith(r, Eol)
    ensures output != "" ==> (r == output <==> EndsWith(output, Eol))
    ensures |r| <= |output| + |Eol|
  {
    if output == "" then ""
    else if EndsWith(output, Eol) then output
    else output + Eol
  }

  /**
   * The variables in scope when `eval` runs: `extract(..., EXTR_SKIP)` puts
   * the stored variables next to the method's locals `$code` and
   * `$wrappedCode` without overwriting them.
   */
  function Scope(store: Bindings, code: string, wrapped: string): (r: Bindings)
    ensures r.Keys == store.Keys + {"code", "wrappedCode"}
    ensures r["code"] == Str(code) && r["wrappedCode"] == Str(wrapped)
    ensures forall n :: n in store && n != "code" && n != "wrappedCode" ==> r[n] == store[n]
  {
    store + map["code" := Str(code), "wrappedCode" := Str(wrapped)]
  }

  /**
   * `get_defined_vars()` once the call has returned: the variables the
   * engine reports, with the method's locals `$result` (what `eval`
   * returned) and `$output` (the captured text) assigned over them.
   */
  function DefinedAfter(value: Value, output: string, after: Bindings): (r: Bindings)
    ensures r.Keys == after.Keys + {"result", "output"}
    ensures r["result"] == value && r["output"] == Str(output)
    ensures forall n :: n in after && n != "result" && n != "output" ==> r[n] == after[n]
  {
    after["result" := value]["output" := Str(output)]
  }

  /**
   * `evaluate`. Blank code and the four exit words are answered without
   * calling the engine. A call that throws shows none of its output and
   * leaves the store as it was; a call that completes echoes its output
   * under the newline rule and reconciles the store.
   */
  function Evaluate(store: Bindings, code: string, engine: Engine): (r: Evaluation)
    ensures Trim(code) == "" ==> r == Evaluation(Returned(Null), "", store)
    ensures Trim(code) in ExitTokens ==> r == Evaluation(ExitSignal, "", store)
    ensures Trim(code) != "" && Trim(code) !in ExitTokens ==>
      var scope := Scope(store, Trim(code), WrapCode(Trim(code)));
      r == Settle(store, scope, engine(WrapCode(Trim(code)), scope))
  {
    var c := Trim(code);
    if c == "" then
      Evaluation(Returned(Null), "", store)
    else if c in ExitTokens then
      Evaluation(ExitSignal, "", store)
    else
      var w := WrapCode(c);
      var scope := Scope(store, c, w);
      Settle(store, scope, engine(w, scope))
  }

  /**
   * The engine's reply turned into the evaluation: a throw shows nothing
   * and keeps the store; a completed call echoes its output under the
   * newline rule and reconciles the store against the scope it ran in and
   * the variables defined once `$result` and `$output` are assigned; a
   * script that ended shows only what was still buffered.
   */
  function Settle(store: Bindings, scope: Bindings, reply: Reply): (r: Evaluation)
    ensures reply.Raised? ==> r == Evaluation(Threw(reply.errorClass, reply.message), "", store)
    ensures reply.Exited? ==> r == Evaluation(ScriptEnded, reply.bufferedOutput, store)
    ensures reply.Completed? ==>
      && r.outcome == Returned(reply.value)
      && r.emitted == ShownOutput(reply.output)
      && r.store == UpdateVariables(store, scope, DefinedAfter(reply.value, reply.output, reply.after))
  {
    match reply
    case Raised(cls, msg, _) => Evaluation(Threw(cls, msg), "", store)
    case Exited(out) => Evaluation(ScriptEnded, out, store)
    case Completed(v, out, after) =>
      Evaluation(Returned(v), ShownOutput(out), UpdateVariables(store, scope, DefinedAfter(v, out, after)))
  }

  /** Blank code and exit words never reach the engine: any two engines give the same answer. */
  lemma PreDispatchIgnoresEngine(store: Bindings, code: string, e1: Engine, e2: Engine)
    requires Trim(code) == "" || Trim(code) in ExitTokens
    ensures Evaluate(store, code, e1) == Evaluate(store, code, e2)
    ensures Evaluate(store, code, e1).store == store
  {
  }

  /** An engine whose code touches no variable and prints nothing. */
  function Inert(wrapped: string, scope: Bindings): Reply {
    Completed(Null, "", scope)
  }

  /**
   * The locals `$code` and `$wrappedCode` shadow stored variables of those
   * names: even code that touches no variable leaves a stored `code` holding
   * the text of the unit just evaluated.
   */
  lemma StoredCodeIsShadowed(store: Bindings, code: string)
    requires "code" in store
    requires Trim(code) != "" && Trim(code) !in ExitTokens
    ensures Evaluate(store, code, Inert).store["code"] == Str(Trim(code))
  {
    var c := Trim(code);
    var scope := Scope(store, c, WrapCode(c));
    var after := DefinedAfter(Null, "", scope);
    assert Evaluate(store, code, Inert).store == UpdateVariables(store, scope, after);
    UpdateVariablesSpec(store, scope, after);
  }

  /**
   * The locals `$result` and `$output` overwrite stored variables of those
   * names after every completed call: a stored `output` ends up holding the
   * captured text, and a stored `result` the value returned unless that is
   * `null` (which `isset` does not see).
   */
  lemma StoredResultAndOutputAreOverwritten(store: Bindings, code: string, engine: Engine)
    requires Trim(code) != "" && Trim(code) !in ExitTokens
    requires engine(WrapCode(Trim(code)), Scope(store, Trim(code), WrapCode(Trim(code)))).Completed?
    ensures var reply := engine(WrapCode(Trim(code)), Scope(store, Trim(code), WrapCode(Trim(code))));
      var s := Evaluate(store, code, engine).store;
      && ("output" in store ==> s["output"] == Str(reply.output))
      && ("result" in store ==> s["result"] == (if reply.value == Null then store["result"] else reply.value))
      && ("output" !in store ==> "output" !in s)
      && ("result" !in store ==> "result" !in s)
  {
    var c := Trim(code);
    var scope := Scope(store, c, WrapCode(c));
    var reply := engine(WrapCode(c), scope);
    var after := DefinedAfter(reply.value, reply.output, reply.after);
    assert Evaluate(store, code, engine).store == UpdateVariables(store, scope, after);
    UpdateVariablesSpec(store, scope, after);
    assert "output" !in NewNames(store, scope, after) && "result" !in NewNames(store, scope, after);
  }

  /**
   * Code that touches nothing and prints nothing keeps every stored
   * variable except those the method's locals `$code`, `$wrappedCode` and
   * `$output` overwrite.
   */
  lemma InertKeepsOtherVariables(store: Bindings, code: string)
    requires Trim(code) != "" && Trim(code) !in ExitTokens
    ensures var s := Evaluate(store, code, Inert).store;
      && s.Keys == store.Keys
      && (forall n :: n in store && n != "code" && n != "wrappedCode" && n != "output" ==> s[n] == store[n])
      && ("output" in store ==> s["output"] == Str(""))
  {
    var c := Trim(code);
    var scope := Scope(store, c, WrapCode(c));
    var after := DefinedAfter(Null, "", scope);
    assert Evaluate(store, code, Inert).store == UpdateVariables(store, scope, after);
    UpdateVariablesSpec(store, scope, after);
    assert NewNames(store, scope, after) == {};
  }
}

=== FILE: formatter.dfy ===
/**
 * `Formatter`: the text the REPL prints for a value, optionally wrapped in
 * an ANSI colour per type, with a truncated preview of arrays.
 */
module Formatter {
  import opened Maybe
  import opened Php
  import opened Values

  const Esc: string := "\U{1B}"

  /** The escape sequence that selects a colour. */
  function Sgr(code: string): string {
    Esc + "[" + code + "m"
  }

  const ResetSgr: string := Esc + "[0m"

  function Paint(colorize: bool, code: string, text: string): string {
    if colorize then Sgr(code) + text + ResetSgr else text
  }

  /** The fixed colour of each type. */
  function ColorCode(v: Value): string {
    match v
    case Null => "90"
    case Bool(_) => "33"
    case Int(_) => "36"
    case Float(_) => "36"
    case Str(_) => "32"
    case Arr(_) => "35"
    case Obj(_, _) => "34"
    case Resource(_, _) => "31"
  }

  /** A key as the preview shows it. */
  function KeyText(k: Key): string {
    match k
    case IntKey(i) => IntToString(i)
    case StrKey(s) => VarExport(s)
  }

  /**
   * String keys are quoted `var_export` literals and integer keys their
   * bare decimal text, so the two kinds never show alike: `'1'` is not `1`.
   */
  lemma KeyTextSpec(k: Key)
    ensures k.StrKey? ==> KeyText(k) == VarExport(k.s) && KeyText(k)[0] == '\''
    ensures k.IntKey? ==> KeyText(k) == IntToString(k.i) && KeyText(k)[0] != '\''
  {
  }

  /** `implode($sep, $items)`. */
  function Join(items: seq<string>, sep: string): string {
    if |items| == 0 then ""
    else if |items| == 1 then items[0]
    else items[0] + sep + Join(items[1..], sep)
  }

  /** The longest string a nested preview shows whole. */
  const PreviewWidth: nat := 20

  /**
   * `getValuePreview`: an element inside an array preview. At depth 0 or
   * below it is `...`; otherwise arrays recurse with at most two items,
   * objects show their class, long strings are cut to 20 bytes and `...`
   * unquoted, short strings are quoted, and other values are cast to string.
   */
  function ValuePreview(v: Value, maxDepth: int): (r: string)
    ensures maxDepth <= 0 ==> r == "..."
    ensures maxDepth > 0 && v.Str? && |v.s| > PreviewWidth ==> r == v.s[..PreviewWidth] + "..."
    ensures maxDepth > 0 && v.Str? && |v.s| <= PreviewWidth ==> r == VarExport(v.s)
    ensures maxDepth > 0 && v.Obj? ==> r == v.className
    ensures maxDepth > 0 && v.Int? ==> r == IntToString(v.i)
    ensures maxDepth > 0 && v.Bool? ==> r == (if v.b then "1" else "")
    ensures maxDepth > 0 && v.Null? ==> r == ""
    ensures maxDepth > 0 && v.Arr? ==> |r| >= 2 && r[0] == '[' && r[|r| - 1] == ']'
    decreases v, 1
  {
    if maxDepth <= 0 then "..."
    else
      match v
      case Arr(entries) => ArrayPreview(entries, maxDepth, 2)
      case Obj(_, className) => className
      case Str(s) =>
        if |s| > PreviewWidth then s[..PreviewWidth] + "..."
        else VarExport(s)
      case Null => ""
      case Bool(b) => if b then "1" else ""
      case Int(i) => IntToString(i)
      case Float(text) => text
      case Resource(id, _) => "Resource id #" + NatToString(id)
  }

  /** `getArrayPreview`: `[]` when empty, else the items joined by `, ` in brackets. */
  function ArrayPreview(entries: seq<Entry>, maxDepth: int, maxItems: nat): (r: string)
    ensures |r| >= 2 && r[0] == '[' && r[|r| - 1] == ']'
    decreases entries, 3
  {
    if |entries| == 0 then "[]"
    else "[" + Join(PreviewItems(entries, maxDepth, maxItems), ", ") + "]"
  }

  /**
   * The items of an array preview: the first `maxItems` entries as
   * `key => value`, in order, and one final `...` exactly when entries
   * remain beyond them.
   */
  function PreviewItems(entries: seq<Entry>, maxDepth: int, maxItems: nat): (r: seq<string>)
    ensures |r| == if |entries| <= maxItems then |entries| else maxItems + 1
    ensures |entries| > maxItems ==> r[|r| - 1] == "..."
    decreases entries, 2
  {
    Elide(EntryItems(entries, maxDepth - 1), maxItems)
  }

  /** Every entry as `key => value`, in order, the values previewed at `maxDepth`. */
  function EntryItems(entries: seq<Entry>, maxDepth: int): (r: seq<string>)
    ensures |r| == |entries|
    decreases entries, 1
  {
    seq(|entries|, j requires 0 <= j < |entries| => Item(entries[j], maxDepth))
  }

  /** The first `maxItems` items in order, then `...` when any remain. */
  function Elide(items: seq<string>, maxItems: nat): (r: seq<string>)
    ensures |r| == if |items| <= maxItems then |items| else maxItems + 1
    ensures forall j :: 0 <= j < |r| && j < maxItems && j < |items| ==> r[j] == items[j]
    ensures |items| > maxItems ==> r[|r| - 1] == "..."
  {
    if |items| <= maxItems then items else items[..maxItems] + ["..."]
  }

  /** One entry of a preview: `key => value`, the value previewed at `maxDepth`. */
  function Item(e: Entry, maxDepth: int): string
    decreases e, 0
  {
    KeyText(e.key) + " => " + ValuePreview(e.value, maxDepth)
  }

  /**
   * At depth 1 every element of a nested array previews as `...`: all
   * items of its preview end in `...`.
   */
  lemma DepthOneElidesValues(entries: seq<Entry>, maxItems: nat)
    ensures forall i :: 0 <= i < |PreviewItems(entries, 1, maxItems)| ==>
      EndsWith(PreviewItems(entries, 1, maxItems)[i], "...")
  {
    var items := PreviewItems(entries, 1, maxItems);
    var all := EntryItems(entries, 0);
    forall i | 0 <= i < |items|
      ensures EndsWith(items[i], "...")
    {
      if i < maxItems && i < |entries| {
        var key := KeyText(entries[i].key);
        assert all[i] == Item(entries[i], 0);
        assert ValuePreview(entries[i].value, 0) == "...";
        assert items[i] == key + " => " + "...";
        EndsWithAfter(key + " => ", "...", "...");
      }
    }
  }


  /** `format`: the value's text, wrapped in its type's colour when colorizing. */
  function Format(colorize: bool, v: Value): (r: string)
    ensures colorize ==> Sgr(ColorCode(v)) <= r && EndsWith(r, ResetSgr)
    ensures !colorize ==> r == Plain(v)
  {
    Paint(colorize, ColorCode(v), Plain(v))
  }

  /**
   * The uncoloured text of `format`: `null`, `true`/`false`, the decimal
   * integer, the `var_export` literal of a string, `array(N) ` and its
   * preview, `object(Class)` and `resource(type)`.
   */
  function Plain(v: Value): (r: string)
    ensures v.Null? ==> r == "null"
    ensures v.Bool? ==> r == (if v.b then "true" else "false")
    ensures v.Int? ==> r == IntToString(v.i)
    ensures v.Str? ==> r == VarExport(v.s)
    ensures v.Arr? ==> "array(" + NatToString(|v.entries|) + ") [" <= r
    ensures v == Arr([]) ==> r == "array(0) []"
    ensures v.Obj? ==> r == "object(" + v.className + ")"
    ensures v.Resource? ==> r == "resource(" + v.kind + ")"
  {
    match v
    case Null => "null"
    case Bool(b) => if b then "true" else "false"
    case Int(i) => IntToString(i)
    case Float(text) => text
    case Str(s) => VarExport(s)
    case Arr(entries) => "array(" + NatToString(|entries|) + ") " + ArrayPreview(entries, 2, 3)
    case Obj(_, className) => "object(" + className + ")"
    case Resource(_, kind) => "resource(" + kind + ")"
  }

  /** A string's text, and its preview when short, read back as the string. */
  lemma StringTextReadsBack(s: string, maxDepth: int)
    ensures Unexport(Plain(Str(s))) == Some(s)
    ensures maxDepth > 0 && |s| <= PreviewWidth ==> Unexport(ValuePreview(Str(s), maxDepth)) == Some(s)
  {
    VarExportRoundTrip(s);
  }

  /**
   * An integer's text, and its preview, read back as the integer: the
   * canonical decimal text `(string)` gives.
   */
  lemma IntTextReadsBack(i: int, maxDepth: int)
    ensures ParseInt(Plain(Int(i))) == i
    ensures maxDepth > 0 ==> ParseInt(ValuePreview(Int(i), maxDepth)) == i
  {
    IntRoundTrip(i);
  }

  /** The empty string prints as two quotes, so neither its text nor its preview can be mistaken for `null`'s. */
  lemma EmptyStringIsQuoted(maxDepth: int)
    requires maxDepth > 0
    ensures Plain(Str("")) == "''" != Plain(Null)
    ensures ValuePreview(Str(""), maxDepth) == "''" != ValuePreview(Null, maxDepth)
  {
    assert VarExport("") == "''";
  }

  /** Colour only wraps: the coloured text is the uncoloured one between the type's escape and the reset. */
  lemma ColorWrapsPlainText(v: Value)
    ensures Format(true, v) == Sgr(ColorCode(v)) + Format(false, v) + ResetSgr
  {
  }

  /**
   * A non-empty top-level array shows its count, then its first three
   * entries and a final `...` when there are more.
   */
  lemma TopLevelPreview(entries: seq<Entry>)
    requires |entries| > 0
    ensures var items := PreviewItems(entries, 2, 3);
      && Format(false, Arr(entries)) == "array(" + NatToString(|entries|) + ") " + ArrayPreview(entries, 2, 3)
      && ArrayPreview(entries, 2, 3) == "[" + Join(items, ", ") + "]"
      && |items| == (if |entries| <= 3 then |entries| else 4)
      && (|entries| > 3 ==> items[3] == "...")
  {
    assert Format(false, Arr(entries)) == Plain(Arr(entries));
  }

  /**
   * An element of a top-level array that is itself a non-empty array
   * previews at depth 1, with at most two items of its own.
   */
  lemma NestedArrayItem(entries: seq<Entry>, i: nat, inner: seq<Entry>)
    requires i < |entries| && i < 3
    requires entries[i].value == Arr(inner) && inner != []
    ensures PreviewItems(entries, 2, 3)[i] == KeyText(entries[i].key) + " => " + ArrayPreview(inner, 1, 2)
    ensures ArrayPreview(inner, 1, 2) == "[" + Join(PreviewItems(inner, 1, 2), ", ") + "]"
  {
    ItemAt(entries, 2, 3, i);
    assert ValuePreview(Arr(inner), 1) == ArrayPreview(inner, 1, 2);
  }

  /** The `i`-th item of a preview, for `i` below the item limit. */
  lemma ItemAt(entries: seq<Entry>, maxDepth: int, maxItems: nat, i: nat)
    requires i < |entries| && i < maxItems
    ensures PreviewItems(entries, maxDepth, maxItems)[i] == Item(entries[i], maxDepth - 1)
  {
    var items := EntryItems(entries, maxDepth - 1);
    assert items[i] == Item(entries[i], maxDepth - 1);
  }
}

=== FILE: maybe.dfy ===
/** An optional value: PHP's nullable parameters and `getenv`'s `false`. */
module Maybe {

  datatype Option<+T> = None | Some(value: T)
}

=== FILE: php.dfy ===
/**
 * The PHP built-ins the session engine leans on, as pure functions over
 * strings. A `char` stands for one byte: `strlen` is `|s|`.
 */
module Php {
  import opened Maybe

  /** `PHP_EOL` on the platforms the REPL targets. */
  const Eol: string := "\n"

  /** The characters `trim` and `rtrim` strip by default: " \t\n\r\0\x0B". */
  predicate IsTrimSpace(c: char) {
    c == ' ' || c == '\t' || c == '\n' || c == '\r' || c == '\0' || c == '\U{0B}'
  }

  /** The characters PCRE's `\s` matches: space, \t, \n, \x0B, \f, \r. */
  predicate IsPcreSpace(c: char) {
    c == ' ' || c == '\t' || c == '\n' || c == '\U{0B}' || c == '\U{0C}' || c == '\r'
  }

  /** PCRE's `\w` without the `u` modifier: ASCII letters, digits, `_`. */
  predicate IsWordChar(c: char) {
    ('a' <= c <= 'z') || ('A' <= c <= 'Z') || ('0' <= c <= '9') || c == '_'
  }

  /** Every character of `s` is one `trim` strips. */
  predicate IsBlank(s: string) {
    forall i :: 0 <= i < |s| ==> IsTrimSpace(s[i])
  }

  predicate EndsWith(s: string, suffix: string) {
    |suffix| <= |s| && s[|s| - |suffix|..] == suffix
  }

  /** Text written before a string does not change how it ends. */
  lemma EndsWithAfter(prefix: string, s: string, suffix: string)
    requires EndsWith(s, suffix)
    ensures EndsWith(prefix + s, suffix)
  {
    assert (prefix + s)[|prefix + s| - |suffix|..] == s[|s| - |suffix|..];
  }

  /** `rtrim($s)`: drops trailing trim characters. */
  function RTrim(s: string): string {
    if |s| > 0 && IsTrimSpace(s[|s| - 1]) then RTrim(s[..|s| - 1]) else s
  }

  /** `rtrim` keeps a prefix that does not end in a trim character and drops only trim characters. */
  lemma {:induction false} RTrimSpec(s: string)
    ensures var r := RTrim(s);
      && r <= s
      && (r == [] || !IsTrimSpace(r[|r| - 1]))
      && IsBlank(s[|r|..])
  {
    if |s| > 0 && IsTrimSpace(s[|s| - 1]) {
      RTrimSpec(s[..|s| - 1]);
      var r := RTrim(s[..|s| - 1]);
      assert s[|r|..] == s[..|s| - 1][|r|..] + [s[|s| - 1]];
    }
  }

  /** `ltrim($s)`: drops leading trim characters. */
  function LTrim(s: string): string {
    if |s| > 0 && IsTrimSpace(s[0]) then LTrim(s[1..]) else s
  }

  /** `ltrim` keeps a suffix that does not start with a trim character and drops only trim characters. */
  lemma {:induction false} LTrimSpec(s: string)
    ensures var r := LTrim(s);
      && |r| <= |s| && r == s[|s| - |r|..]
      && (r == [] || !IsTrimSpace(r[0]))
      && IsBlank(s[..|s| - |r|])
  {
    if |s| > 0 && IsTrimSpace(s[0]) {
      LTrimSpec(s[1..]);
      var r := LTrim(s[1..]);
      assert s[..|s| - |r|] == [s[0]] + s[1..][..|s[1..]| - |r|];
    }
  }

  /** `trim($s)`. */
  function Trim(s: string): string {
    LTrim(RTrim(s))
  }

  /** `rtrim($s, $c)` with a one-character list: drops every trailing `c`. */
  function RTrimChar(s: string, c: char): (r: string)
  {
    if |s| > 0 && s[|s| - 1] == c then RTrimChar(s[..|s| - 1], c) else s
  }

  /** `rtrim($s, ';')` leaves `s` minus its whole run of trailing `c`. */
  lemma {:induction false} RTrimCharDropsRun(s: string, c: char)
    ensures var r := RTrimChar(s, c);
      && r <= s
      && (r == [] || r[|r| - 1] != c)
      && forall i :: |r| <= i < |s| ==> s[i] == c
  {
    if |s| > 0 && s[|s| - 1] == c {
      RTrimCharDropsRun(s[..|s| - 1], c);
    }
  }

  /** Drops leading characters that PCRE's `\s` matches (the `^\s*` of a pattern). */
  function LStripPcre(s: string): (r: string)
  {
    if |s| > 0 && IsPcreSpace(s[0]) then LStripPcre(s[1..]) else s
  }

  /** Drops trailing characters that PCRE's `\s` matches (the `\s*$` of a pattern). */
  function RStripPcre(s: string): (r: string)
  {
    if |s| > 0 && IsPcreSpace(s[|s| - 1]) then RStripPcre(s[..|s| - 1]) else s
  }

  /** Every character of `s` is one PCRE's `\s` matches. */
  predicate IsPcreBlank(s: string) {
    forall i :: 0 <= i < |s| ==> IsPcreSpace(s[i])
  }

  /** `^\s*` consumes a run of `\s` characters: what is left is a suffix that does not start with one. */
  lemma {:induction false} LStripPcreSpec(s: string)
    ensures var r := LStripPcre(s);
      && |r| <= |s| && r == s[|s| - |r|..]
      && (r == [] || !IsPcreSpace(r[0]))
      && IsPcreBlank(s[..|s| - |r|])
  {
    if |s| > 0 && IsPcreSpace(s[0]) {
      LStripPcreSpec(s[1..]);
      var r := LStripPcre(s[1..]);
      assert s[..|s| - |r|] == [s[0]] + s[1..][..|s[1..]| - |r|];
    }
  }

  /** `\s*$` consumes a run of `\s` characters: what is left is a prefix that does not end in one. */
  lemma {:induction false} RStripPcreSpec(s: string)
    ensures var r := RStripPcre(s);
      && r <= s
      && (r == [] || !IsPcreSpace(r[|r| - 1]))
      && IsPcreBlank(s[|r|..])
  {
    if |s| > 0 && IsPcreSpace(s[|s| - 1]) {
      RStripPcreSpec(s[..|s| - 1]);
      var r := RStripPcre(s[..|s| - 1]);
      assert s[|r|..] == s[..|s| - 1][|r|..] + [s[|s| - 1]];
    }
  }

  /** `preg_match('/;\s*$/', $s)`: a `;` followed only by `\s` characters ends `s`. */
  predicate EndsWithSemicolon(s: string) {
    var t := RStripPcre(s);
    |t| > 0 && t[|t| - 1] == ';'
  }

  /** The pattern `;\s*$` matches exactly when some `;` in `s` is followed by nothing but `\s` characters. */
  lemma EndsWithSemicolonIff(s: string)
    ensures EndsWithSemicolon(s) <==> exists k :: 0 <= k < |s| && s[k] == ';' && IsPcreBlank(s[k + 1..])
  {
    var t := RStripPcre(s);
    RStripPcreSpec(s);
    if EndsWithSemicolon(s) {
      var k := |t| - 1;
      assert s[k] == ';' && s[k + 1..] == s[|t|..];
    }
    if exists k :: 0 <= k < |s| && s[k] == ';' && IsPcreBlank(s[k + 1..]) {
      var k :| 0 <= k < |s| && s[k] == ';' && IsPcreBlank(s[k + 1..]);
      assert |t| == k + 1;
    }
  }

  /** One character under the ASCII case folding of PCRE's `i` flag: capitals become small letters, nothing else changes. */
  function LowerChar(c: char): (r: char)
    ensures r != c <==> 'A' <= c <= 'Z'
    ensures 'A' <= c <= 'Z' ==> r as int == c as int + 32
    ensures !('A' <= r <= 'Z')
  {
    if 'A' <= c <= 'Z' then (c as int - 'A' as int + 'a' as int) as char else c
  }

  /** Case folding as the `i` modifier compares without the `u` modifier: ASCII letters only. */
  function Lower(s: string): string {
    seq(|s|, i requires 0 <= i < |s| => LowerChar(s[i]))
  }

  /**
   * Case folding keeps the length, changes exactly the characters `A` to
   * `Z`, and leaves text it already lowered as it is.
   */
  lemma LowerSpec(s: string)
    ensures |Lower(s)| == |s|
    ensures forall i :: 0 <= i < |s| ==> (Lower(s)[i] != s[i] <==> 'A' <= s[i] <= 'Z')
    ensures Lower(Lower(s)) == Lower(s)
  {
    var t := Lower(s);
    assert forall i :: 0 <= i < |t| ==> Lower(t)[i] == t[i];
  }

  /** `substr_count($s, $c)` for a one-character needle. */
  function Count(s: string, c: char): nat {
    if |s| == 0 then 0 else (if s[0] == c then 1 else 0) + Count(s[1..], c)
  }

  lemma {:induction false} CountAppend(a: string, b: string, c: char)
    ensures Count(a + b, c) == Count(a, c) + Count(b, c)
  {
    if |a| > 0 {
      assert (a + b)[1..] == a[1..] + b;
      CountAppend(a[1..], b, c);
    } else {
      assert a + b == b;
    }
  }

  lemma {:induction false} CountAbsent(s: string, c: char)
    requires c !in s
    ensures Count(s, c) == 0
  {
    if |s| > 0 {
      assert c !in s[1..];
      CountAbsent(s[1..], c);
    }
  }

  lemma CountBlank(s: string, c: char)
    requires IsBlank(s) && !IsTrimSpace(c)
    ensures Count(s, c) == 0
  {
    CountAbsent(s, c);
  }

  /** `rtrim` never changes how often a non-blank character occurs. */
  lemma CountRTrim(s: string, c: char)
    requires !IsTrimSpace(c)
    ensures Count(RTrim(s), c) == Count(s, c)
  {
    var r := RTrim(s);
    RTrimSpec(s);
    assert s == r + s[|r|..];
    CountAppend(r, s[|r|..], c);
    CountBlank(s[|r|..], c);
  }

  /** `ltrim` never changes how often a non-blank character occurs. */
  lemma CountLTrim(s: string, c: char)
    requires !IsTrimSpace(c)
    ensures Count(LTrim(s), c) == Count(s, c)
  {
    var t := LTrim(s);
    LTrimSpec(s);
    assert s == s[..|s| - |t|] + t;
    CountAppend(s[..|s| - |t|], t, c);
    CountBlank(s[..|s| - |t|], c);
  }

  /** Trimming never changes how often a non-blank character occurs. */
  lemma CountTrim(s: string, c: char)
    requires !IsTrimSpace(c)
    ensures Count(Trim(s), c) == Count(s, c)
  {
    CountRTrim(s, c);
    CountLTrim(RTrim(s), c);
  }

  lemma {:induction false} RTrimOfBlank(s: string)
    requires IsBlank(s)
    ensures RTrim(s) == []
  {
    if |s| > 0 {
      assert IsBlank(s[..|s| - 1]);
      RTrimOfBlank(s[..|s| - 1]);
    }
  }

  /** `trim($s) === ''` exactly when every character of `s` is a trim character. */
  lemma TrimEmptyIffBlank(s: string)
    ensures Trim(s) == [] <==> IsBlank(s)
  {
    var r := RTrim(s);
    RTrimSpec(s);
    LTrimSpec(r);
    if Trim(s) == [] {
      assert r[..|r| - 0] == r;
      assert IsBlank(r);
      forall i | 0 <= i < |s|
        ensures IsTrimSpace(s[i])
      {
        if i >= |r| {
          assert s[i] == s[|r|..][i - |r|];
        }
      }
    }
    if IsBlank(s) {
      RTrimOfBlank(s);
    }
  }

  /** `str_pad($s, $n, ' ', STR_PAD_LEFT)`: never truncates. */
  function PadLeft(s: string, n: int): (r: string)
    ensures |r| == if n <= |s| then |s| else n
    ensures EndsWith(r, s)
    ensures forall i :: 0 <= i < |r| - |s| ==> r[i] == ' '
  {
    if n <= |s| then s else seq(n - |s|, _ => ' ') + s
  }

  // ---------------------------------------------------------------------
  // Decimal text of integers: `(string) $int` and `sprintf('%d', ...)`.

  predicate IsDigit(c: char) { '0' <= c <= '9' }

  function DigitChar(d: nat): (c: char)
    requires d < 10
    ensures IsDigit(c)
  {
    ('0' as int + d) as char
  }

  function NatToString(n: nat): (r: string)
    ensures |r| >= 1
    ensures forall i :: 0 <= i < |r| ==> IsDigit(r[i])
    ensures r[0] == '0' <==> n == 0
    ensures n == 0 ==> r == "0"
    decreases n
  {
    if n < 10 then [DigitChar(n)] else NatToString(n / 10) + [DigitChar(n % 10)]
  }

  /** An optional minus sign followed by digits (at least one character). */
  predicate IsIntText(s: string) {
    && |s| >= 1
    && (s[0] == '-' || IsDigit(s[0]))
    && forall i :: 1 <= i < |s| ==> IsDigit(s[i])
  }

  /** `(string) $i`: an optional minus sign, then the digits with no leading zero. */
  function IntToString(i: int): (r: string)
    ensures IsIntText(r)
    ensures r[0] == '-' <==> i < 0
    ensures i < 0 ==> |r| >= 2 && r[1] != '0'
    ensures i >= 0 ==> (r[0] == '0' <==> i == 0)
    ensures i == 0 ==> r == "0"
  {
    if i < 0 then "-" + NatToString(-i) else NatToString(i)
  }

  /** Reads back a run of decimal digits. */
  function ParseNat(s: string): nat
    requires forall i :: 0 <= i < |s| ==> IsDigit(s[i])
  {
    if |s| == 0 then 0
    else
      assert IsDigit(s[|s| - 1]);
      10 * ParseNat(s[..|s| - 1]) + (s[|s| - 1] as int - '0' as int)
  }

  function ParseInt(s: string): int
    requires IsIntText(s)
  {
    if s[0] == '-' then -(ParseNat(s[1..]) as int) else ParseNat(s)
  }

  lemma {:induction false} NatRoundTrip(n: nat)
    ensures ParseNat(NatToString(n)) == n
    decreases n
  {
    if n >= 10 {
      var p := NatToString(n / 10);
      var s := p + [DigitChar(n % 10)];
      assert s[..|s| - 1] == p;
      NatRoundTrip(n / 10);
    }
  }

  /** The decimal text of an integer reads back as the same integer. */
  lemma IntRoundTrip(i: int)
    ensures ParseInt(IntToString(i)) == i
  {
    var s := IntToString(i);
    if i < 0 {
      var n := NatToString(-i);
      assert s == "-" + n && s[1..] == n;
      NatRoundTrip(-i);
      assert ParseInt(s) == -(ParseNat(n) as int);
    } else {
      NatRoundTrip(i);
      assert s == NatToString(i) && s[0] != '-';
    }
  }

  // ---------------------------------------------------------------------
  // `var_export($string, true)`: single quotes around the text with `\` and
  // `'` backslash-escaped and every NUL byte spliced in as `' . "\0" . '`.

  const NulSplice: string := "' . \"\\0\" . '"

  function ExportChar(c: char): string {
    if c == '\\' then "\\\\"
    else if c == '\'' then "\\'"
    else if c == '\0' then NulSplice
    else [c]
  }

  function ExportBody(s: string): string {
    if |s| == 0 then "" else ExportChar(s[0]) + ExportBody(s[1..])
  }

  function VarExport(s: string): (r: string)
    ensures |r| >= 2 && r[0] == '\'' && r[|r| - 1] == '\''
    ensures |r| >= |s| + 2
  {
    ExportBodyLength(s);
    "'" + ExportBody(s) + "'"
  }

  lemma {:induction false} ExportBodyLength(s: string)
    ensures |ExportBody(s)| >= |s|
  {
    if |s| > 0 {
      ExportBodyLength(s[1..]);
    }
  }

  /** `p` before a decoded text; nothing when decoding failed. */
  function Prepend(p: string, r: Option<string>): Option<string> {
    match r
    case None => None
    case Some(x) => Some(p + x)
  }

  /**
   * Reads the inside of a single-quoted literal as `var_export` writes it:
   * `\\` and `\'` are the escaped backslash and quote, and `' . "\0" . '`
   * is a NUL byte. A backslash or quote outside those forms, or a raw NUL
   * byte, is not something `var_export` writes, and decoding fails.
   */
  function ImportBody(t: string): Option<string>
    decreases |t|
  {
    if |t| == 0 then Some("")
    else if t[0] == '\\' && |t| >= 2 && (t[1] == '\\' || t[1] == '\'') then Prepend([t[1]], ImportBody(t[2..]))
    else if NulSplice <= t then Prepend("\0", ImportBody(t[|NulSplice|..]))
    else if t[0] == '\'' || t[0] == '\0' || t[0] == '\\' then None
    else Prepend([t[0]], ImportBody(t[1..]))
  }

  /** Reads a `var_export`ed string literal back to the string; fails on anything else. */
  function Unexport(q: string): Option<string> {
    if |q| >= 2 && q[0] == '\'' && q[|q| - 1] == '\'' then ImportBody(q[1..|q| - 1]) else None
  }

  /** Decoding one exported character consumes exactly its export. */
  lemma ImportExportChar(c: char, rest: string)
    ensures ImportBody(ExportChar(c) + rest) == Prepend([c], ImportBody(rest))
  {
    var t := ExportChar(c) + rest;
    if c == '\\' || c == '\'' {
      assert t[0] == '\\' && t[1] == c && |t| >= 2;
      assert t[2..] == rest;
    } else if c == '\0' {
      assert t[0] != '\\';
      assert NulSplice <= t;
      assert t[|NulSplice|..] == rest;
    } else {
      assert t[0] == c;
      assert !(NulSplice <= t) by {
        assert NulSplice[0] != c;
      }
      assert t[1..] == rest;
    }
  }

  lemma {:induction false} ExportBodyRoundTrip(s: string)
    ensures ImportBody(ExportBody(s)) == Some(s)
  {
    if |s| > 0 {
      ImportExportChar(s[0], ExportBody(s[1..]));
      ExportBodyRoundTrip(s[1..]);
      assert [s[0]] + s[1..] == s;
    }
  }

  /**
   * `var_export` of a string is a literal that the strict reader accepts
   * and reads back as the same string: every quote and backslash in it is
   * escaped and every NUL byte spliced.
   */
  lemma VarExportRoundTrip(s: string)
    ensures Unexport(VarExport(s)) == Some(s)
  {
    var q := VarExport(s);
    assert q[1..|q| - 1] == ExportBody(s);
    ExportBodyRoundTrip(s);
  }

  /** Text the strict reader accepts holds no raw NUL byte. */
  lemma {:induction false} ImportedHasNoRawNul(t: string)
    requires ImportBody(t).Some?
    ensures '\0' !in t
    decreases |t|
  {
    if |t| > 0 {
      if t[0] == '\\' && |t| >= 2 && (t[1] == '\\' || t[1] == '\'') {
        ImportedHasNoRawNul(t[2..]);
        assert t == t[..2] + t[2..];
      } else if NulSplice <= t {
        ImportedHasNoRawNul(t[|NulSplice|..]);
        assert t == NulSplice + t[|NulSplice|..];
      } else {
        ImportedHasNoRawNul(t[1..]);
        assert t == [t[0]] + t[1..];
      }
    }
  }

  /** No NUL byte survives raw in a `var_export` literal: each one is spliced. */
  lemma VarExportHasNoRawNul(s: string)
    ensures '\0' !in VarExport(s)
  {
    ExportBodyRoundTrip(s);
    ImportedHasNoRawNul(ExportBody(s));
    assert VarExport(s) == "'" + ExportBody(s) + "'";
  }

  /** The reader refuses a literal with an unescaped quote or backslash inside, or with a raw NUL byte. */
  lemma UnexportIsStrict()
    ensures Unexport("'it's'") == None
    ensures Unexport("'a\0b'") == None
    ensures Unexport("'\\a'") == None
    ensures Unexport("'it\\'s'") == Some("it's")
  {
    assert "'it's'"[1..5] == "it's";
    assert !(NulSplice <= "'s");
    assert ImportBody("'s") == None;
    assert ImportBody("t's") == None;
    assert ImportBody("it's") == None;
    assert "'a\0b'"[1..4] == "a\0b";
    assert !(NulSplice <= "\0b");
    assert ImportBody("a\0b") == None;
    assert "'\\a'"[1..3] == "\\a";
    assert !(NulSplice <= "\\a");
    assert ImportBody("\\a") == None;
    var q := "'it\\'s'";
    assert q[1..|q| - 1] == "it\\'s";
    ReadsBackPlain("s", "");
    assert ['s'] + "" == "s";
    assert ImportBody("\\'s") == Some("'s") by {
      var t := "\\'s";
      assert t[0] == '\\' && t[1] == '\'' && t[2..] == "s";
      assert ImportBody(t) == Prepend([t[1]], ImportBody("s"));
      assert [t[1]] + "s" == "'s";
    }
    assert "t\\'s"[1..] == "\\'s";
    ReadsBackPlain("t\\'s", "'s");
    assert ['t'] + "'s" == "t's";
    assert "it\\'s"[1..] == "t\\'s";
    ReadsBackPlain("it\\'s", "t's");
    assert ['i'] + "t's" == "it's";
  }

  /** A leading character that is neither `\\`, `'` nor NUL reads as itself. */
  lemma ReadsBackPlain(t: string, rest: string)
    requires |t| > 0 && t[0] != '\\' && t[0] != '\'' && t[0] != '\0'
    requires ImportBody(t[1..]) == Some(rest)
    ensures ImportBody(t) == Some([t[0]] + rest)
  {
    assert !(NulSplice <= t) by {
      assert NulSplice[0] == '\'';
    }
  }
}

=== FILE: readline_input.dfy ===
/**
 * The statement accumulator behind `ReadlineInput::read`: raw lines are
 * buffered until the buffer is structurally complete, then handed over as
 * one unit of code.
 *
 * The line source is the finite sequence of lines `readline` returns; the
 * end of the sequence is `readline` returning `false` (Ctrl+D).
 */
module ReadlineInput {
  import opened Maybe
  import opened Php

  /** The accumulator's state: the configured prompt, the pending buffer and the prompt's line counter. */
  datatype Input = Input(prompt: string, buffer: string, lineNumber: int)

  function NewInput(prompt: string): (s: Input)
    ensures s.prompt == prompt && s.buffer == "" && s.lineNumber == 1
  {
    Input(prompt, "", 1)
  }

  // ---------------------------------------------------------------------
  // Completeness

  /** The three delimiter kinds the heuristic counts. */
  datatype Delim = Brace | Bracket | Paren

  function Opener(d: Delim): char {
    match d
    case Brace => '{'
    case Bracket => '['
    case Paren => '('
  }

  function Closer(d: Delim): char {
    match d
    case Brace => '}'
    case Bracket => ']'
    case Paren => ')'
  }

  /** Openers minus closers of one kind over the whole text. */
  function Surplus(s: string, d: Delim): int {
    Count(s, Opener(d)) - Count(s, Closer(d))
  }

  predicate Balanced(s: string) {
    forall d: Delim :: Surplus(s, d) == 0
  }

  /**
   * `isCompleteStatement`. The `;` test and the block-keyword test that
   * follow the balance test in the source both answer `true`, as does the
   * fall-through, so once the buffer is non-blank and balanced the answer
   * is `true` whatever they find.
   */
  predicate IsCompleteStatement(code: string)
  {
    var c := Trim(code);
    if c == "" then false
    else if Surplus(c, Brace) != 0 || Surplus(c, Bracket) != 0 || Surplus(c, Paren) != 0 then false
    else true
  }

  /**
   * The verdict, stated over the untrimmed buffer: complete exactly when it
   * is not blank and every delimiter kind balances by count.
   */
  lemma CompleteIffBalanced(code: string)
    ensures IsCompleteStatement(code) <==> !IsBlank(code) && Balanced(code)
  {
    TrimEmptyIffBlank(code);
    forall d: Delim
      ensures Surplus(Trim(code), d) == Surplus(code, d)
    {
      CountTrim(code, Opener(d));
      CountTrim(code, Closer(d));
    }
  }

  lemma SurplusAppend(a: string, b: string, d: Delim)
    ensures Surplus(a + b, d) == Surplus(a, d) + Surplus(b, d)
  {
    CountAppend(a, b, Opener(d));
    CountAppend(a, b, Closer(d));
  }

  /** Text with no delimiter of kind `d` in it. */
  predicate FreeOf(s: string, d: Delim) {
    Opener(d) !in s && Closer(d) !in s
  }

  /**
   * A surplus opener or closer of any kind keeps a buffer incomplete
   * whatever text without that kind is appended: there is no kind matching
   * and no string or comment awareness.
   */
  lemma SurplusBlocksCompletion(buffer: string, more: string, d: Delim)
    requires Surplus(buffer, d) != 0
    requires FreeOf(more, d)
    ensures !IsCompleteStatement(buffer + more)
  {
    SurplusAppend(buffer, more, d);
    CountAbsent(more, Opener(d));
    CountAbsent(more, Closer(d));
    CompleteIffBalanced(buffer + more);
  }

  // ---------------------------------------------------------------------
  // One line

  /** The right-trimmed line ends in a backslash: the user asked for another line. */
  predicate IsContinuation(line: string) {
    var t := RTrim(line);
    t != "" && t[|t| - 1] == '\\'
  }

  /** What a line adds to the buffer. */
  function Contribution(line: string): (r: string)
    ensures IsContinuation(line) ==> r + "\\" <= line && IsBlank(line[|r| + 1..])
    ensures !IsContinuation(line) ==> r == line + Eol
  {
    if IsContinuation(line) then
      var t := RTrim(line);
      RTrimSpec(line);
      assert t[..|t| - 1] + "\\" == t;
      t[..|t| - 1]
    else
      line + Eol
  }

  /** The outcome of feeding one line to the accumulator. */
  datatype Step = Yield(code: string, next: Input) | Wait(next: Input)

  /** One pass of `read` after `readline` returned a line. */
  function Feed(s: Input, line: string): (r: Step)
    ensures r.next.prompt == s.prompt
    ensures r.Yield? <==> !IsContinuation(line) && IsCompleteStatement(s.buffer + Contribution(line))
    ensures r.Yield? ==>
      && r.code == s.buffer + Contribution(line)
      && r.next.buffer == ""
      && r.next.lineNumber == s.lineNumber + 1
    ensures r.Wait? ==>
      && r.next.buffer == s.buffer + Contribution(line)
      && r.next.lineNumber == s.lineNumber
  {
    var b := s.buffer + Contribution(line);
    if !IsContinuation(line) && IsCompleteStatement(b) then
      Yield(b, s.(buffer := "", lineNumber := s.lineNumber + 1))
    else
      Wait(s.(buffer := b))
  }

  // ---------------------------------------------------------------------
  // A whole `read` call

  /** The buffer after feeding `lines`, none of which completed it. */
  function Pending(buffer: string, lines: seq<string>): string
    decreases |lines|
  {
    if |lines| == 0 then buffer else Pending(buffer + Contribution(lines[0]), lines[1..])
  }

  /** Feeding `lines` to `buffer` completes a unit at the last of them. */
  predicate CompletesOn(buffer: string, lines: seq<string>) {
    |lines| > 0 && !IsContinuation(lines[|lines| - 1]) && IsCompleteStatement(Pending(buffer, lines))
  }

  /** The outcome of `read`: a unit or `null`, the state after, and the lines not yet read. */
  datatype ReadResult = ReadResult(unit: Option<string>, next: Input, rest: seq<string>)

  lemma ShiftPrefix(buffer: string, src: seq<string>, j: nat)
    requires 1 <= j < |src|
    ensures src[..j + 1][1..] == src[1..][..j]
    ensures Pending(buffer, src[..j + 1]) == Pending(buffer + Contribution(src[0]), src[1..][..j])
    ensures CompletesOn(buffer, src[..j + 1]) <==> CompletesOn(buffer + Contribution(src[0]), src[1..][..j])
  {
    var a := src[..j + 1];
    var b1 := buffer + Contribution(src[0]);
    assert a[0] == src[0];
    assert a[1..] == src[1..][..j];
    assert Pending(buffer, a) == Pending(b1, a[1..]);
    assert a[|a| - 1] == src[1..][..j][j - 1];
  }

  /** `read`: pulls lines until one completes the buffer; at end of input returns no unit. */
  function Read(s: Input, src: seq<string>): (r: ReadResult)
    ensures |r.rest| <= |src|
    ensures r.next.prompt == s.prompt
    ensures r.unit.Some? ==> |r.rest| < |src| && r.next.buffer == "" && r.next.lineNumber == s.lineNumber + 1
    ensures r.unit.None? ==> r.rest == [] && r.next.lineNumber == s.lineNumber
    decreases |src|
  {
    if |src| == 0 then
      ReadResult(None, s, src)
    else
      match Feed(s, src[0])
      case Yield(code, next) => ReadResult(Some(code), next, src[1..])
      case Wait(next) => Read(next, src[1..])
  }

  /** What `read` leaves unread is the tail of its input: lines are consumed in order. */
  lemma {:induction false} ReadLeavesSuffix(s: Input, src: seq<string>)
    ensures var r := Read(s, src); r.rest == src[|src| - |r.rest|..]
    decreases |src|
  {
    if |src| > 0 {
      match Feed(s, src[0])
      case Yield(_, _) =>
      case Wait(next) =>
        ReadLeavesSuffix(next, src[1..]);
        var r := Read(next, src[1..]);
        assert src[1..][|src| - 1 - |r.rest|..] == src[|src| - |r.rest|..];
    }
  }

  /** The number of lines a read consumed. */
  function Consumed(src: seq<string>, r: ReadResult): nat
    requires |r.rest| <= |src|
  {
    |src| - |r.rest|
  }

  /**
   * `read` hands over the buffer at exactly the first line that completes
   * it, and only then; a read that reaches end of input keeps everything
   * the lines contributed as the pending buffer.
   */
  lemma {:induction false} ReadYieldsAtFirstCompletion(s: Input, src: seq<string>)
    ensures var r := Read(s, src); var k := Consumed(src, r);
      r.unit.Some? ==>
        && k >= 1
        && CompletesOn(s.buffer, src[..k])
        && (forall j :: 1 <= j < k ==> !CompletesOn(s.buffer, src[..j]))
        && r.unit.value == Pending(s.buffer, src[..k])
    ensures var r := Read(s, src);
      r.unit.None? ==>
        && (forall j :: 1 <= j <= |src| ==> !CompletesOn(s.buffer, src[..j]))
        && r.next.buffer == Pending(s.buffer, src)
    decreases |src|
  {
    if |src| > 0 {
      FirstLine(s.buffer, src);
      match Feed(s, src[0])
      case Yield(code, next) =>
        var r := Read(s, src);
        assert r.rest == src[1..] && Consumed(src, r) == 1;
        assert r.unit.value == Pending(s.buffer, src[..1]);
      case Wait(next) =>
        ReadLeavesSuffix(next, src[1..]);
        ReadYieldsAtFirstCompletion(next, src[1..]);
        var r := Read(next, src[1..]);
        assert Read(s, src) == r;
        if r.unit.Some? {
          var k := Consumed(src[1..], r);
          assert Consumed(src, r) == k + 1;
          WaitThenYield(s.buffer, src, k);
        } else {
          WaitThenEnd(s.buffer, src);
        }
    }
  }

  /** Feeding the first line alone: it completes nothing unless `Feed` yields. */
  lemma FirstLine(buffer: string, src: seq<string>)
    requires |src| > 0
    ensures src[..1] == [src[0]]
    ensures Pending(buffer, src[..1]) == buffer + Contribution(src[0])
    ensures CompletesOn(buffer, src[..1]) <==>
      !IsContinuation(src[0]) && IsCompleteStatement(buffer + Contribution(src[0]))
  {
    assert src[..1] == [src[0]];
    assert Pending(buffer, [src[0]]) == Pending(buffer + Contribution(src[0]), []);
  }

  /** No prefix of `src` longer than one line completes iff no prefix of `src[1..]` does from `b1`. */
  lemma ShiftNone(buffer: string, src: seq<string>, n: nat)
    requires 1 <= n <= |src|
    requires !CompletesOn(buffer, src[..1])
    requires forall j :: 1 <= j < n ==> !CompletesOn(buffer + Contribution(src[0]), src[1..][..j])
    ensures forall j :: 1 <= j <= n ==> !CompletesOn(buffer, src[..j])
  {
    forall j | 1 <= j <= n
      ensures !CompletesOn(buffer, src[..j])
    {
      if j > 1 {
        ShiftPrefix(buffer, src, j - 1);
      }
    }
  }

  /** A unit yielded by the read after a waiting first line is the first completion of all of `src`. */
  lemma WaitThenYield(buffer: string, src: seq<string>, k: nat)
    requires 1 <= k < |src|
    requires !CompletesOn(buffer, src[..1])
    requires CompletesOn(buffer + Contribution(src[0]), src[1..][..k])
    requires forall j :: 1 <= j < k ==> !CompletesOn(buffer + Contribution(src[0]), src[1..][..j])
    ensures CompletesOn(buffer, src[..k + 1])
    ensures forall j :: 1 <= j < k + 1 ==> !CompletesOn(buffer, src[..j])
    ensures Pending(buffer, src[..k + 1]) == Pending(buffer + Contribution(src[0]), src[1..][..k])
  {
    ShiftPrefix(buffer, src, k);
    ShiftNone(buffer, src, k);
  }

  /** A read after a waiting first line that reaches end of input completed no prefix of `src`. */
  lemma WaitThenEnd(buffer: string, src: seq<string>)
    requires |src| > 0
    requires !CompletesOn(buffer, src[..1])
    requires forall j :: 1 <= j <= |src| - 1 ==> !CompletesOn(buffer + Contribution(src[0]), src[1..][..j])
    ensures forall j :: 1 <= j <= |src| ==> !CompletesOn(buffer, src[..j])
    ensures Pending(buffer + Contribution(src[0]), src[1..]) == Pending(buffer, src)
  {
    ShiftNone(buffer, src, |src|);
  }

  // ---------------------------------------------------------------------
  // Prompt and buffer accessors

  /** The continuation prompt: `'*> '` left-padded to the configured prompt's length. */
  function ContinuationPrompt(prompt: string): (r: string)
    ensures |r| == if |prompt| <= 3 then 3 else |prompt|
    ensures EndsWith(r, "*> ")
    ensures forall i :: 0 <= i < |r| - 3 ==> r[i] == ' '
  {
    PadLeft("*> ", |prompt|)
  }

  /** The text `read` passes to `readline`: `[n] ` then the main or the continuation prompt. */
  function Prompt(s: Input): (r: string)
    ensures var tag := "[" + IntToString(s.lineNumber) + "] ";
      && tag <= r
      && (s.buffer == "" ==> r[|tag|..] == s.prompt)
      && (s.buffer != "" ==> r[|tag|..] == ContinuationPrompt(s.prompt))
  {
    var current := if s.buffer == "" then s.prompt else ContinuationPrompt(s.prompt);
    "[" + IntToString(s.lineNumber) + "] " + current
  }

  /** `reset`: drops the pending buffer and nothing else. */
  function Reset(s: Input): (r: Input)
    ensures !HasPendingBuffer(r)
    ensures r.prompt == s.prompt && r.lineNumber == s.lineNumber
  {
    s.(buffer := "")
  }

  predicate HasPendingBuffer(s: Input) {
    s.buffer != ""
  }

  function GetPendingBuffer(s: Input): string {
    s.buffer
  }

  /** After a `read` that hit end of input, the pending buffer is everything the lines contributed. */
  lemma PendingAfterEndOfInput(s: Input, src: seq<string>)
    requires Read(s, src).unit.None?
    ensures GetPendingBuffer(Read(s, src).next) == Pending(s.buffer, src)
    ensures HasPendingBuffer(Read(s, src).next) <==> Pending(s.buffer, src) != ""
  {
    ReadYieldsAtFirstCompletion(s, src);
  }

  /**
   * Lines that hold no delimiter of kind `d` leave the buffer's surplus of
   * that kind as it was, however many of them are accumulated.
   */
  lemma {:induction false} PendingKeepsSurplus(buffer: string, lines: seq<string>, d: Delim)
    requires forall i :: 0 <= i < |lines| ==> FreeOf(lines[i], d)
    ensures Surplus(Pending(buffer, lines), d) == Surplus(buffer, d)
    decreases |lines|
  {
    if |lines| > 0 {
      var c := Contribution(lines[0]);
      assert FreeOf(c, d) by {
        if IsContinuation(lines[0]) {
          assert forall i :: 0 <= i < |c| ==> c[i] == lines[0][i];
        } else {
          assert c == lines[0] + Eol;
        }
      }
      CountAbsent(c, Opener(d));
      CountAbsent(c, Closer(d));
      SurplusAppend(buffer, c, d);
      PendingKeepsSurplus(buffer + c, lines[1..], d);
    }
  }

  /**
   * However many lines follow, a read whose buffer has a surplus of one
   * delimiter kind, fed lines that never mention that kind, yields nothing.
   */
  lemma UnbalancedReadWaits(s: Input, src: seq<string>, d: Delim)
    requires Surplus(s.buffer, d) != 0
    requires forall i :: 0 <= i < |src| ==> FreeOf(src[i], d)
    ensures Read(s, src).unit.None?
    ensures Read(s, src).next.lineNumber == s.lineNumber
  {
    forall j | 1 <= j <= |src|
      ensures !CompletesOn(s.buffer, src[..j])
    {
      PendingKeepsSurplus(s.buffer, src[..j], d);
      CompleteIffBalanced(Pending(s.buffer, src[..j]));
    }
    ReadYieldsAtFirstCompletion(s, src);
  }
}

=== FILE: repl.dfy ===
/**
 * `Repl`: the read-evaluate-print loop. It prints the welcome text, reads
 * complete units, evaluates them, prints the formatted result or an error
 * line, and says goodbye at end of input or on an exit signal.
 *
 * The whole session is a pure function of the configuration, the lines the
 * user types (their end is Ctrl+D) and the execution engine; its result is
 * the text written to standard output.
 */
module Repl {
  import opened Maybe
  import opened Php
  import opened Values
  import opened Configuration
  import opened ReadlineInput
  import opened Evaluator
  import opened Formatter

  const Goodbye: string := "\nGoodbye!\n"

  const Banner: string := "Prayog (प्रयोग) - PHP REPL\n"

  const QuitHint: string := "Type 'exit' or press Ctrl+D to quit.\n\n"

  /**
   * `printWelcome`: a configured message on a line of its own, or the
   * three-line banner naming the PHP version followed by a blank line.
   */
  function Welcome(config: Config, phpVersion: string): (r: string)
    ensures config.welcomeMessage.Some? ==> r == config.welcomeMessage.value + "\n"
    ensures config.welcomeMessage.None? ==>
      && Banner <= r
      && |r| >= |Banner| + |QuitHint|
      && r[|Banner|..|r| - |QuitHint|] == "PHP " + phpVersion + "\n"
      && EndsWith(r, QuitHint)
  {
    match config.welcomeMessage
    case Some(message) => message + "\n"
    case None =>
      var r := Banner + "PHP " + phpVersion + "\n" + QuitHint;
      assert r[|Banner|..|r| - |QuitHint|] == "PHP " + phpVersion + "\n";
      r
  }

  /** The class name `printError` shows: `Parse error` for a `ParseError`, the class itself otherwise. */
  function ErrorKind(errorClass: string): string {
    if errorClass == "ParseError" then "Parse error" else errorClass
  }

  /** `printError`: `Error (kind): message` on its own line, in red when colouring. */
  function ErrorLine(colorize: bool, kind: string, message: string): (r: string)
    ensures !colorize ==> r == "Error (" + kind + "): " + message + "\n"
    ensures colorize ==> Sgr("31") <= r && EndsWith(r, ResetSgr + "\n")
  {
    Paint(colorize, "31", "Error (" + kind + "): " + message) + "\n"
  }

  /** The coloured error line is the plain one with the red escape before and the reset before its newline. */
  lemma ColoredErrorLine(kind: string, message: string)
    ensures var plain := ErrorLine(false, kind, message);
      ErrorLine(true, kind, message) == Sgr("31") + plain[..|plain| - 1] + ResetSgr + "\n"
  {
    var text := "Error (" + kind + "): " + message;
    assert ErrorLine(false, kind, message)[..|text + "\n"| - 1] == text;
  }

  /** `$result instanceof ExitSignal` for a value the evaluated code returned. */
  predicate IsExitSignal(v: Value) {
    v.Obj? && v.className == "Prayog\\ExitSignal"
  }

  /** The REPL's state between two units: its configuration, the input reader and the stored variables. */
  datatype Session = Session(config: Config, historyFile: string, input: Input, store: Bindings)

  /**
   * A new session: the reader uses the configured prompt, starts at line 1
   * with nothing pending, the history file is the configured one or the
   * default path, and no variable is stored.
   */
  function NewSession(config: Config, env: Env): (s: Session)
    ensures s.input == NewInput(config.prompt) && s.input.lineNumber == 1 && !HasPendingBuffer(s.input)
    ensures s.historyFile == HistoryFile(config, env)
    ensures config.historyFile.Some? ==> s.historyFile == config.historyFile.value
    ensures config.historyFile.None? ==> s.historyFile == DefaultHistoryFile(env) && EndsWith(s.historyFile, HistoryName)
    ensures s.store == map[]
  {
    Session(config, HistoryFile(config, env), NewInput(config.prompt), map[])
  }

  /**
   * One turn of the loop ends the session with its last text, ends the
   * whole script with the text PHP flushes at shutdown, or continues with
   * the next state and the unread lines.
   */
  datatype Turn =
    | Stop(text: string)
    | Halt(text: string)
    | Continue(text: string, next: Session, rest: seq<string>)

  /** The text `start` prints for a value `evaluate` returned: nothing for `null`, else the formatted value and a newline. */
  function ResultText(colorize: bool, v: Value): (r: string)
    ensures v == Null <==> r == ""
    ensures v != Null ==> EndsWith(r, "\n") && r[..|r| - 1] == Format(colorize, v)
  {
    if v == Null then "" else Format(colorize, v) + "\n"
  }

  /**
   * One iteration of `start`: read a unit; at end of input say goodbye;
   * otherwise evaluate it, stop on an exit signal, print a non-null result,
   * or print the error of a throwable and keep going. Code that ends the
   * script ends the session without the goodbye.
   */
  function Cycle(s: Session, src: seq<string>, engine: Engine): (t: Turn)
    ensures t.Continue? ==> |t.rest| < |src| && t.next.config == s.config && t.next.historyFile == s.historyFile
    ensures t.Continue? ==> !HasPendingBuffer(t.next.input) && t.next.input.prompt == s.input.prompt
    ensures t.Stop? ==> EndsWith(t.text, Goodbye)
    ensures NeverExits(engine) ==> !t.Halt?
    ensures t.Halt? ==>
      var r := Read(s.input, src);
      r.unit.Some? &&
      var c := Trim(r.unit.value);
      engine(WrapCode(c), Scope(s.store, c, WrapCode(c))) == Exited(t.text)
    ensures src == [] && !HasPendingBuffer(s.input) ==> t == Stop(Goodbye)
  {
    var r := Read(s.input, src);
    match r.unit
    case None => Stop(Goodbye)
    case Some(code) =>
      var e := Evaluate(s.store, code, engine);
      var next := s.(input := r.next, store := e.store);
      match e.outcome
      case ExitSignal => Stop(e.emitted + Goodbye)
      case Returned(v) =>
        if IsExitSignal(v) then Stop(e.emitted + Goodbye)
        else Continue(e.emitted + ResultText(s.config.colorOutput, v), next, r.rest)
      case Threw(errorClass, message) =>
        Continue(ErrorLine(s.config.colorOutput, ErrorKind(errorClass), message), next, r.rest)
      case ScriptEnded => Halt(e.emitted)
  }

  /**
   * Whether the session from state `s`, on these lines, reaches a turn
   * whose code ends the script before it stops.
   */
  predicate SessionHalts(s: Session, src: seq<string>, engine: Engine)
    decreases |src|
  {
    match Cycle(s, src, engine)
    case Stop(_) => false
    case Halt(_) => true
    case Continue(_, next, rest) => SessionHalts(next, rest, engine)
  }

  /** An engine that never ends the script never halts a session. */
  lemma {:induction false} NeverExitsNeverHalts(s: Session, src: seq<string>, engine: Engine)
    requires NeverExits(engine)
    ensures !SessionHalts(s, src, engine)
    decreases |src|
  {
    match Cycle(s, src, engine)
    case Stop(_) =>
    case Halt(_) =>
    case Continue(_, next, rest) =>
      NeverExitsNeverHalts(next, rest, engine);
  }

  /**
   * The rest of the session from state `s`: every turn's text, up to and
   * including the goodbye, or up to the text of the turn that ended the
   * script.
   */
  function Loop(s: Session, src: seq<string>, engine: Engine): (transcript: string)
    ensures !SessionHalts(s, src, engine) ==> EndsWith(transcript, Goodbye)
    decreases |src|
  {
    match Cycle(s, src, engine)
    case Stop(text) => text
    case Halt(text) => text
    case Continue(text, next, rest) =>
      var tail := Loop(next, rest, engine);
      assert !SessionHalts(s, src, engine) ==> EndsWith(text + tail, Goodbye) by {
        if !SessionHalts(s, src, engine) {
          EndsWithAfter(text, tail, Goodbye);
        }
      }
      text + tail
  }

  /**
   * `start`: the welcome text, then the loop from a new session. It ends
   * with the goodbye unless the evaluated code ended the script.
   */
  function Start(config: Config, env: Env, phpVersion: string, src: seq<string>, engine: Engine): (transcript: string)
    ensures Welcome(config, phpVersion) <= transcript
    ensures !SessionHalts(NewSession(config, env), src, engine) ==> EndsWith(transcript, Goodbye)
  {
    var tail := Loop(NewSession(config, env), src, engine);
    assert !SessionHalts(NewSession(config, env), src, engine) ==> EndsWith(Welcome(config, phpVersion) + tail, Goodbye) by {
      if !SessionHalts(NewSession(config, env), src, engine) {
        EndsWithAfter(Welcome(config, phpVersion), tail, Goodbye);
      }
    }
    Welcome(config, phpVersion) + tail
  }

  /** Ctrl+D at once: the session is the welcome text and the goodbye, whatever the engine. */
  lemma EndOfInputSaysGoodbye(config: Config, env: Env, phpVersion: string, engine: Engine)
    ensures Start(config, env, phpVersion, [], engine) == Welcome(config, phpVersion) + Goodbye
  {
  }

  /**
   * End of input ends the session with the goodbye alone, whatever the
   * engine: lines still pending in the buffer are dropped, not evaluated.
   */
  lemma PendingLinesAreDroppedAtEnd(s: Session, src: seq<string>, engine: Engine)
    requires Read(s.input, src).unit.None?
    ensures Loop(s, src, engine) == Goodbye
    ensures HasPendingBuffer(Read(s.input, src).next) <==> Pending(s.input.buffer, src) != ""
  {
    PendingAfterEndOfInput(s.input, src);
  }

  /** A unit that trims to an exit word ends the session with nothing but the goodbye, whatever the engine. */
  lemma ExitWordStops(s: Session, src: seq<string>, engine: Engine)
    requires var r := Read(s.input, src); r.unit.Some? && Trim(r.unit.value) in ExitTokens
    ensures Cycle(s, src, engine) == Stop(Goodbye)
    ensures Loop(s, src, engine) == Goodbye
  {
  }

  /**
   * A unit the engine rejects prints one error line, discards its partial
   * output and leaves every stored variable as it was; a parse error is
   * named `Parse error`, any other throwable by its class.
   */
  lemma FailureKeepsStore(s: Session, src: seq<string>, engine: Engine, code: string)
    requires Read(s.input, src).unit == Some(code)
    requires Trim(code) != "" && Trim(code) !in ExitTokens
    requires engine(WrapCode(Trim(code)), Scope(s.store, Trim(code), WrapCode(Trim(code)))).Raised?
    ensures var t := Cycle(s, src, engine);
      var reply := engine(WrapCode(Trim(code)), Scope(s.store, Trim(code), WrapCode(Trim(code))));
      && t.Continue?
      && t.next.store == s.store
      && t.text == ErrorLine(s.config.colorOutput,
                             if reply.errorClass == "ParseError" then "Parse error" else reply.errorClass,
                             reply.message)
  {
    var c := Trim(code);
    var scope := Scope(s.store, c, WrapCode(c));
    var reply := engine(WrapCode(c), scope);
    var e := Evaluate(s.store, code, engine);
    assert e == Evaluation(Threw(reply.errorClass, reply.message), "", s.store);
    var r := Read(s.input, src);
    assert Cycle(s, src, engine) == Continue(ErrorLine(s.config.colorOutput, ErrorKind(reply.errorClass), reply.message),
                                             s.(input := r.next, store := e.store), r.rest);
  }

  /**
   * A unit the engine completes prints its captured output under the
   * newline rule, then the formatted value on a line of its own unless it
   * is `null`, and the store takes in the variables the code changed and
   * the locals `$result` and `$output` the method assigned.
   */
  lemma CompletionPrintsValue(s: Session, src: seq<string>, engine: Engine, code: string)
    requires Read(s.input, src).unit == Some(code)
    requires Trim(code) != "" && Trim(code) !in ExitTokens
    requires var reply := engine(WrapCode(Trim(code)), Scope(s.store, Trim(code), WrapCode(Trim(code))));
      reply.Completed? && !IsExitSignal(reply.value)
    ensures var t := Cycle(s, src, engine);
      var scope := Scope(s.store, Trim(code), WrapCode(Trim(code)));
      var reply := engine(WrapCode(Trim(code)), scope);
      && t.Continue?
      && t.text == ShownOutput(reply.output) + (if reply.value == Null then "" else Format(s.config.colorOutput, reply.value) + "\n")
      && t.next.store == UpdateVariables(s.store, scope, DefinedAfter(reply.value, reply.output, reply.after))
  {
    var c := Trim(code);
    var scope := Scope(s.store, c, WrapCode(c));
    var reply := engine(WrapCode(c), scope);
    var e := Evaluate(s.store, code, engine);
    assert e == Evaluation(Returned(reply.value), ShownOutput(reply.output),
                           UpdateVariables(s.store, scope, DefinedAfter(reply.value, reply.output, reply.after)));
    var r := Read(s.input, src);
    assert Cycle(s, src, engine) == Continue(e.emitted + ResultText(s.config.colorOutput, reply.value),
                                             s.(input := r.next, store := e.store), r.rest);
  }

  /**
   * A unit whose code ends the script ends the session there: the
   * transcript is the output PHP flushes at shutdown, and no goodbye follows.
   */
  lemma ScriptEndSkipsGoodbye(s: Session, src: seq<string>, engine: Engine, code: string)
    requires Read(s.input, src).unit == Some(code)
    requires Trim(code) != "" && Trim(code) !in ExitTokens
    requires engine(WrapCode(Trim(code)), Scope(s.store, Trim(code), WrapCode(Trim(code)))).Exited?
    ensures Loop(s, src, engine) == engine(WrapCode(Trim(code)), Scope(s.store, Trim(code), WrapCode(Trim(code)))).bufferedOutput
  {
    var c := Trim(code);
    var reply := engine(WrapCode(c), Scope(s.store, c, WrapCode(c)));
    assert Evaluate(s.store, code, engine) == Evaluation(ScriptEnded, reply.bufferedOutput, s.store);
    assert Cycle(s, src, engine) == Halt(reply.bufferedOutput);
  }

  /**
   * A unit that trims to `exit;`, semicolon included, is not an exit word:
   * it reaches the engine as `return exit;`, and PHP's `exit` then ends the
   * script.
   */
  lemma ExitStatementReachesEngine(store: Bindings, code: string, engine: Engine)
    requires Trim(code) == "exit;"
    ensures var scope := Scope(store, "exit;", "return exit;");
      Evaluate(store, code, engine) == Settle(store, scope, engine("return exit;", scope))
  {
    ExitStatementWraps(Trim(code));
  }
}

=== FILE: values.dfy ===
/**
 * PHP values as the engine hands them back: a closed tagged variant over
 * the types `gettype` distinguishes.
 */
module Values {

  /** An array key: PHP keys are integers or strings. */
  datatype Key = IntKey(i: int) | StrKey(s: string)

  /**
   * `Float` carries the engine's own `(string)` cast of the double, since
   * float-to-text conversion is not modelled. `Obj` carries a handle so that
   * `===` on objects is identity, as in PHP; `Resource` carries the resource
   * id and the name `get_resource_type` reports.
   */
  datatype Value =
    | Null
    | Bool(b: bool)
    | Int(i: int)
    | Float(text: string)
    | Str(s: string)
    | Arr(entries: seq<Entry>)
    | Obj(handle: nat, className: string)
    | Resource(id: nat, kind: string)

  /** One `key => value` pair of an ordered PHP array. */
  datatype Entry = Entry(key: Key, value: Value)

  /** A variable scope: variable name to value. */
  type Bindings = map<string, Value>
}
